=== FILE: README.md ===
# Haystack agent core, modelled in Dafny

Haystack is a Ruby gem that watches a Rails (or Rack, or background-job)
application. Instrumentation events are collected into *transactions*. Each
completed transaction is buffered in the *agent*'s aggregator. A background
thread periodically post-processes, serializes and compresses the buffer into a
batch, pushes it onto a bounded *retry queue*, and transmits every queued batch
to the Haystack service. How the service answers decides what happens next:

- the batch is dropped or kept;
- the pacing interval is adjusted;
- or the agent is shut down.

In a forking server, workers do not transmit themselves. They hand their
transactions to the master over a DRb socket (the IPC client and server).

This project models that core as immutable data and pure step functions, and
proves properties of it. The modules:

- values.dfy (module `Values`): Ruby values, `nil`, raising (`Step`), `to_i`/`to_f`/`to_s`
- config.dfy (module `Configuration`): the configuration options the core reads, `is_ignored_*?`
- event.dfy (module `Events`): `Haystack::Event`
- transaction.dfy (module `Transactions`): `Haystack::Transaction`
- js_exception_transaction.dfy (module `JsExceptions`): `Haystack::JSExceptionTransaction`
- aggregator.dfy (module `Aggregator`): what the aggregator buffers
- post_processor.dfy (module `PostProcessing`): `Aggregator::PostProcessor`
- agent.dfy (module `Agent`): `Haystack::Agent`: queue, pacing, lifecycle
- ipc.dfy (module `Ipc`): `Haystack::IPC` server and client state
- auth_check.dfy (module `AuthCheck`): `Haystack::AuthCheck`
- haystack.dfy (module `Haystack`): the `Haystack` module's API over a `World` record

## Modelling choices

- **Raising.** A Ruby call that may raise returns `Step<T>`. `Done(state)` is a
  normal return. `Raised(state, error)` keeps the effects made before the raise,
  as Ruby does.
- **Globals.** Process-wide globals and the thread-local current transaction id
  are fields of `Haystack.World`:
  - `Haystack.config`, `Haystack.agent` and `Haystack.transactions`;
  - the IPC endpoints;
  - `Process.pid`.
- **Outside the model.** These are function-typed parameters:
  - the transmitter, the `Agent.Transmitter` oracle, which gives the response to
    the delivery of each queue entry;
  - the packer (post-processing, JSON and gzip), `seq<Queued> -> Option<P>`,
    where `None` means it raised;
  - the params sanitizer, the Rack session and path readers, and the Rails
    backtrace cleaner (`Transactions.Hooks`);
  - the two framework sanitizers (`PostProcessing.Sanitizers`);
  - the block given to `monitor_transaction` and `without_instrumentation`;
  - the clock (`now`) and uuids.
- **Retry-queue entries.** Entries are `Option<P>`. `send_aggregators` runs
  `map!` and then `compact!`, and an exception outside the transmitter's
  transport errors aborts it part-way. The batches already delivered are then
  left as `nil`, and `compact!` is skipped, as is the update of
  `transmission_successful`. `Array#any?` ignores the `nil`s, so the next cycle
  delivers the rest.
- **Pacing.** `sleep_time` is a `real`, so ×1.5 and ÷1.5 are exact.
- **Queue-start bound.** This is compared on integers:
  - a header value `v` is read as microseconds exactly when
    `v > 946681200 * 10^6`;
  - otherwise it is read as milliseconds.

  `Transactions.QueueStartIsUnitLoop` shows that this closed form equals the
  source's two-factor loop.
- **`forked!`.** lib/haystack/agent.rb:154-164 sets `active` and `pid`,
  swaps in an empty aggregator, resubscribes and restarts the thread. The
  restarted thread reads `ENV['APP_REVISION']` again, so the revision is the
  one the environment holds at the fork (`Haystack.World.appRevision`). The
  retry queue, the pacing interval and the success flag carry over from the
  parent. `Agent.Forked` does the same.

## Model

| member | source | states |
|---|---|---|
| Agent.New | lib/haystack/agent.rb:10-28 | no agent under an inactive config; otherwise active in the current process, 10 s pacing in development and 60 s elsewhere, empty aggregator and queue, last send counted successful |
| Agent.Deactivate | lib/haystack/agent.rb:166-170 | inactive, unsubscribed and thread stopped, every other field kept |
| Agent.HandleStatus | lib/haystack/agent.rb:182-215 | on the integer status: the batch counts as delivered exactly for the eight handled codes; 200, 400 and unknown codes change nothing, 420 and 413 scale the interval, the shutdown codes deactivate |
| Agent.HandleResult | lib/haystack/agent.rb:180-216 | the batch is dropped exactly for 200, 420, 413, 429, 406, 402, 401 and 400; 420 multiplies and 413 divides the interval by 1.5; the four shutdown codes deactivate; any other code changes nothing and keeps the batch |
| Agent.HandleResultOfStatus | lib/haystack/agent.rb:182 | status strings as the transmitter reports them, decimal renderings, reach the branch of their number |
| Agent.ShutdownCodeStopsWithoutFlush | lib/haystack/agent.rb:193-208 | a shutdown code is `shutdown(false)`: inactive, queue unchanged, no flush whatever the transmitter would answer |
| Agent.PushFront | lib/haystack/agent.rb:128-130 | the new batch is at index 0, followed by the old queue |
| Agent.TruncateQueue | lib/haystack/agent.rb:148-152 | at most three entries, a prefix of the queue; unchanged when already short enough |
| Agent.TruncateAppend | lib/haystack/agent.rb:148-152 | truncating a tail before prepending to it is the same as truncating the whole afterwards |
| Agent.PushAllKeepsNewest | lib/haystack/agent.rb:4 | pushing batches one by one with truncation after each (`PushAll`) leaves the three newest batches, newest first |
| Agent.CompactAllPresent | lib/haystack/agent.rb:144 | `compact!` leaves a queue without nils unchanged |
| Agent.Compact | lib/haystack/agent.rb:144 | only present entries remain, and the result is empty exactly when no entry was present |
| Agent.CompactExact | lib/haystack/agent.rb:144 | every present entry is kept, at the position given by the number of present entries before it, so the result is exactly the present entries in order |
| Agent.Visit | lib/haystack/agent.rb:133-143 | one entry of the pass: kept exactly when the response keeps it, with the interval and active flag its code implies |
| Agent.MapQueue | lib/haystack/agent.rb:133-143 | the pass maps every entry to nil or to itself, changes neither the queue nor the aggregator nor the success flag, and can only deactivate |
| Agent.MapQueueStops | lib/haystack/agent.rb:133-143 | a pass stopped by the first entry whose transmission raised an unlisted exception propagates that exception and leaves that entry and every later one as they were |
| Agent.InterruptedStops | lib/haystack/agent.rb:133-143 | a pass is interrupted exactly when some entry stops it |
| Agent.MapQueueSurvivors | lib/haystack/agent.rb:133-145 | an uninterrupted pass keeps exactly the present entries whose response was a transport error or an unhandled code, in their original order |
| Agent.InterruptedIffError | lib/haystack/agent.rb:133-143 | the pass stops with an exception exactly when some transmission raised one outside the transport errors |
| Agent.MapQueuePace | lib/haystack/agent.rb:185-192 | the interval after a pass is the interval taken through every handled response in order |
| Agent.PacedAllPositive | lib/haystack/agent.rb:185-192 | a positive interval stays positive through any pass |
| Agent.MapQueueActive | lib/haystack/agent.rb:193-208 | the agent is active after a pass exactly when it was before and no handled response was 429, 406, 402 or 401 |
| Agent.SendAggregators | lib/haystack/agent.rb:132-146 | a completed pass leaves the survivors, and success holds exactly when none remain; an interrupted pass raises the exception of the first entry that raised one, leaves that entry and every later one untouched and each earlier one nil or untouched, and keeps the success flag |
| Agent.AcknowledgedNotSurviving | lib/haystack/agent.rb:133-139 | a batch answered with a handled code is not kept, so the queue shrinks |
| Agent.SkippedNotSurviving | lib/haystack/agent.rb:144 | when the filter skips one entry, at least one entry fewer survives the pass |
| Agent.AllAcknowledgedEmpties | lib/haystack/agent.rb:144-145 | when every response is handled, nothing survives and the pass completes |
| Agent.NoUnexpectedErrors | lib/haystack/agent.rb:133-143 | a pass in which nothing raises outside the transport errors runs to the end |
| Agent.TransportErrorsKeepAll | lib/haystack/agent.rb:140-143 | when every delivery fails in transport, every present batch is kept, in order |
| Agent.SurvivorsBound | lib/haystack/agent.rb:144 | a pass never grows the queue |
| Agent.SendQueue | lib/haystack/agent.rb:106-126 | nothing without a buffered item or a present queue entry; otherwise the aggregator is detached and emptied, the packed batch pushed in front and one pass run, and a failing packer loses only the detached batch |
| Agent.Tick | lib/haystack/agent.rb:40-45 | one loop cycle leaves at most three queue entries and never reactivates the agent |
| Agent.FailedSend | lib/haystack/agent.rb:106-146 | with transactions buffered, a packer that succeeds and every delivery failing in transport, a send leaves a nil-free queue as the new batch followed by the old queue |
| Agent.FailedCycle | lib/haystack/agent.rb:40-45 | such a loop cycle is exactly "push the new batch in front, then truncate to three", and the queue stays nil-free |
| Agent.FailedCyclesPushAll | lib/haystack/agent.rb:40-45 | a run of such cycles over a nil-free queue is `PushAll` of the batches packed, in order |
| Agent.FailedCyclesKeepNewest | lib/haystack/agent.rb:4 | after any run of failed cycles starting from a nil-free queue of at most three entries, the queue holds the three newest entries, newest first |
| Agent.Forked | lib/haystack/agent.rb:154-164 | active in the new process with an empty aggregator, a new subscription and thread, and the revision read again from the environment (`restart_thread` runs `start_thread`, agent.rb:34-36); queue, interval and success flag inherited |
| Agent.Enqueue | lib/haystack/agent.rb:97-104 | as written: a fork is noticed first, an unignored item is appended, an ignored transaction is dropped, an ignored frontend report raises |
| Agent.EnqueueIntended | lib/haystack/agent.rb:97-104 | corrected: an ignored item of either kind is never buffered, an unignored one is appended last, a fork resets the aggregator first |
| Agent.EnqueueAgrees | lib/haystack/agent.rb:97-104 | the two agree on the state, and on everything exactly except an ignored frontend report |
| Agent.IgnoredFrontendReportRaises | lib/haystack/agent.rb:100 | the debug line of the as-written version raises `NoMethodError` for an ignored frontend report |
| Agent.Shutdown | lib/haystack/agent.rb:166-176 | always inactive, unsubscribed and stopped; flushes only when asked to and the last pass delivered everything |
| Transactions.New | lib/haystack/transaction.rb:36-49 | empty events, no primary event, empty exception, unpaused; params, tags, kind and action from the defaults, `http_request` when no kind is given |
| Transactions.SetTags | lib/haystack/transaction.rb:67-69 | tags merged, the given ones winning; nothing else changes |
| Transactions.Pause | lib/haystack/transaction.rb:71-73 | sets the flag and nothing else |
| Transactions.Resume | lib/haystack/transaction.rb:75-77 | clears the flag and nothing else |
| Transactions.PauseResume | lib/haystack/transaction.rb:71-77 | resuming after pausing restores an unpaused transaction |
| Transactions.AddEvent | lib/haystack/transaction.rb:99-101 | a paused transaction is unchanged; otherwise exactly the one event is appended |
| Transactions.PausedIgnoresEvents | lib/haystack/transaction.rb:99-101 | no sequence of events reaches a paused transaction |
| Transactions.UnpausedRecordsEvents | lib/haystack/transaction.rb:99-101 | an unpaused transaction records every event, in order, and nothing else changes |
| Transactions.RequestAction | lib/haystack/transaction.rb:82-86 | "controller#action" when the payload names a controller, else the payload's action |
| Transactions.SetProcessActionEvent | lib/haystack/transaction.rb:79-89 | no-op for nil; else primary event, derived action, kind `http_request`, queue start from the environment |
| Transactions.SetPerformJobEvent | lib/haystack/transaction.rb:91-97 | no-op for nil; else primary event, action "class#method", kind `background_job`, a present queue start copied as a float, raising when it has no `to_f` |
| Transactions.JobQueueStartObject | lib/haystack/transaction.rb:196-201 | a `Time` queue start, as the Delayed::Job integration passes, is kept as its `to_f`; an object without `to_f` raises `NoMethodError` |
| Transactions.QueueStartSeconds | lib/haystack/transaction.rb:211-214 | a value read as milliseconds past the year-2000 bound stays past it |
| Transactions.QueueStartIsUnitLoop | lib/haystack/transaction.rb:211-214 | the closed form equals the loop trying 10^6 then 10^3 and stopping past the year-2000 bound |
| Transactions.HttpQueueStart | lib/haystack/transaction.rb:203-217 | no queue start without an environment, a header or digits in it; otherwise the loop over the header's digits |
| Transactions.SetHttpQueueStart | lib/haystack/transaction.rb:203-217 | the field changes only when a queue start is found |
| Transactions.QueueHeaderPreferred | lib/haystack/transaction.rb:205 | `HTTP_X_QUEUE_START` wins over `HTTP_X_REQUEST_START` |
| Transactions.StampedHeader | spec/support/helpers/transaction_helpers.rb:33-38 | a `t=<n>` header yields n read in the unit the bound picks |
| Transactions.HeaderUnitExamples | lib/haystack/transaction.rb:208-214 | millisecond and microsecond stamps of one instant give the same seconds, fractions kept |
| Transactions.CleanBacktrace | lib/haystack/transaction.rb:118-125 | empty without a backtrace, the cleaner's result under Rails, else the raw backtrace |
| Transactions.AddException | lib/haystack/transaction.rb:103-112 | nothing for nil; otherwise class name, message and cleaned backtrace recorded and the time stamped |
| Transactions.HasException | lib/haystack/transaction.rb:114-116 | `exception?`: an exception has been recorded; a definition without a contract of its own, so not counted; `Transactions.AddException` and `Transactions.Type` state what depends on it |
| Transactions.SlowRequest | lib/haystack/transaction.rb:127-130 | `slow_request?`: a primary event whose duration reaches the threshold; a definition without a contract of its own, so not counted; `Transactions.Type` states the classification built on it |
| Transactions.Type | lib/haystack/transaction.rb:168-172 | exception exactly when one is recorded, slow request exactly when none is and the primary event reaches the threshold, else regular |
| Transactions.SanitizeTags | lib/haystack/transaction.rb:233-238 | keeps a pair exactly when the key is a symbol or a string of at most 100 characters and the value a symbol or string of at most 100 characters or an integer |
| Transactions.SanitizeTagsIdempotent | lib/haystack/transaction.rb:233-238 | filtering filtered tags changes nothing |
| Transactions.TagFilterExamples | lib/haystack/transaction.rb:235-236 | boundary cases, including the long symbol key the operator precedence lets through |
| Transactions.SnapshotInto | lib/haystack/transaction.rb:240-245 | nothing without a non-empty environment, otherwise every listed variable written over the previous snapshot |
| Transactions.EnvironmentSnapshot | lib/haystack/transaction.rb:240-245 | every listed variable is present, nil when the environment lacks it |
| Transactions.Convert | lib/haystack/transaction.rb:156-162 | once only: every event and the primary event sanitized, context snapshotted per the configuration, tags filtered, raw environment dropped, identity and exception kept |
| Transactions.ConvertIdempotent | lib/haystack/transaction.rb:156-157 | converting twice is converting once |
| Transactions.Truncate | lib/haystack/transaction.rb:140-150 | once only: payload of the primary event, events, tags and snapshots emptied, environment dropped; raises when there is no primary event |
| Transactions.TruncateIdempotent | lib/haystack/transaction.rb:140-141 | for every transaction, truncating twice is truncating once, including the raise without a primary event |
| Events.Sanitize | lib/haystack/event.rb:2-4 | the payload is the sanitizer's result; name, class, timing and id unchanged |
| Events.Truncate | lib/haystack/event.rb:6-8 | the payload becomes empty, nothing else changes, the duration included |
| Events.TruncateIdempotent | lib/haystack/event.rb:6-8 | truncating twice is truncating once |
| Events.ForInstrumentation | lib/haystack/event.rb:10-17 | a moped event exactly for "query.moped", with the given name, timing and id |
| JsExceptions.Type | lib/haystack/js_exception_transaction.rb:9-11 | always an exception |
| JsExceptions.EventsOf | lib/haystack/js_exception_transaction.rb:19 | never any events |
| JsExceptions.Action | lib/haystack/js_exception_transaction.rb:13-15 | the posted action, nil when absent |
| JsExceptions.ClearEvents | lib/haystack/js_exception_transaction.rb:17-18 | `clear_events!` and `convert_values_to_primitives!` leave a frontend report exactly as it was |
| JsExceptions.ToHash | lib/haystack/js_exception_transaction.rb:21-39 | a failed frontend record whose exception part is the posted name, message and backtrace, unchanged |
| PostProcessing.DefaultMiddleware | lib/haystack/aggregator/post_processor.rb:19-29 | blank deletion first and once; each framework sanitizer present exactly when its library is loaded |
| PostProcessing.DropNils | lib/haystack/aggregator/post_processor.rb:21 | exactly the non-nil entries remain, unchanged |
| PostProcessing.Invoke | lib/haystack/aggregator/post_processor.rb:13 | the chain only ever rewrites the payload |
| PostProcessing.RunChain | lib/haystack/aggregator/post_processor.rb:12-14 | each event of a transaction goes through the chain once, in place; a frontend report is untouched |
| PostProcessing.ProcessEvents | lib/haystack/aggregator/post_processor.rb:12-14 | one transaction after the chain ran over each of its events, which are handed over once each, in order |
| PostProcessing.AllEventsSnoc | lib/haystack/aggregator/post_processor.rb:11-15 | the events of a batch grow by exactly the events of the transaction added |
| PostProcessing.PostProcessedQueue | lib/haystack/aggregator/post_processor.rb:10-17 | one record per transaction in order, each built after the chain ran; every event handed to the chain exactly once, in order |
| PostProcessing.DefaultChainDropsNils | spec/lib/haystack/aggregator/post_processor_spec.rb:65-72 | with no framework loaded, nil entries leave and all others stay |
| PostProcessing.DropNilsIdempotent | lib/haystack/aggregator/post_processor.rb:21 | a batch processed again loses nothing more |
| AuthCheck.Perform | lib/haystack/auth_check.rb:3-14 | the outcome is the transmitter's answer for the "auth" action with an empty payload |
| AuthCheck.Message | lib/haystack/auth_check.rb:19-27 | the confirmation exactly for "200", the invalid-key text exactly for "401", else the status (or "nil") after the fixed prefix |
| AuthCheck.PerformWithResult | lib/haystack/auth_check.rb:16-34 | the status unchanged with its message, or nil and the failure text; never raises |
| AuthCheck.MessageShowsStatus | lib/haystack/auth_check.rb:24-26 | the status can be read back from the message |
| AuthCheck.MessagesDistinct | lib/haystack/auth_check.rb:19-27 | the three outcomes have different texts |
| AuthCheck.MessageExamples | spec/lib/haystack/auth_check_spec.rb:21-25 | "402" gives "Could not confirm authorization: 402" |
| Ipc.ServerUri | lib/haystack/ipc.rb:18-23 | the socket is `haystack-<pid>` in the project's tmp when it exists, else in /tmp |
| Ipc.ServerUriInjective | lib/haystack/ipc.rb:18-23 | two processes never share a socket |
| Ipc.ServerUriSystemTmp | spec/lib/haystack/ipc_spec.rb:35-42 | without a project tmp directory the URI is `drbunix:/tmp/haystack-<pid>` |
| Ipc.ServerUriProjectTmp | spec/lib/haystack/ipc_spec.rb:44-53 | for every root, with a project tmp directory the URI is `drbunix:<root>/tmp/haystack-<pid>`, with one separator after the root whether or not it ends in one |
| Ipc.ServerStart | lib/haystack/ipc.rb:17-27 | running, listening on the chosen URI |
| Ipc.ServerStop | lib/haystack/ipc.rb:29-32 | stopped, the URI reader keeps its value |
| Ipc.ClientStart | lib/haystack/ipc.rb:45-49 | active with a proxy to the server's URI |
| Ipc.ClientStop | lib/haystack/ipc.rb:51-55 | inactive with no proxy |
| Ipc.ClientTransitionsValid | spec/lib/haystack/ipc_spec.rb:81-99 | an active client always has a proxy, and start then stop returns to the idle client |
| Ipc.ForkedClientTargetsMaster | lib/haystack/ipc.rb:6-8 | a worker's client points at the master's socket |
| Configuration.IsIgnoredAction | lib/haystack.rb:175-177 | an action is ignored exactly when it equals some entry of the configured ignore list |
| Configuration.IsIgnoredException | lib/haystack.rb:171-173 | an exception is ignored exactly when its class name equals some entry of the configured list |
| Haystack.Active | lib/haystack.rb:166-169 | the API is active exactly when there is a loaded, active configuration and an existing, active agent |
| Haystack.Current | lib/haystack/transaction.rb:20-22 | the registry's entry for the thread's id, none when either is missing |
| Haystack.Enqueue | lib/haystack.rb:72-75 | nothing when inactive; otherwise only the agent changes, an unignored item is appended last and an ignored one is not buffered |
| Haystack.Create | lib/haystack/transaction.rb:14-18 | a fresh transaction registered under its id becomes current; other entries kept |
| Haystack.ClientEnqueue | lib/haystack/ipc.rb:57-60 | the transaction is forwarded through the proxy; without one the call raises |
| Haystack.ServerEnqueue | lib/haystack/ipc.rb:34-37 | the master buffers a received transaction as it would one of its own |
| Haystack.Complete | lib/haystack/transaction.rb:178-194 | the current id is cleared and the transaction unregistered in every case; only one with a primary event or exception is handed on, converted through an active IPC client or else enqueued |
| Haystack.CompleteCurrent | lib/haystack/transaction.rb:24-31 | completes the current transaction if any, otherwise nothing changes |
| Haystack.JsComplete | lib/haystack/js_exception_transaction.rb:42-44 | the report itself goes to `Haystack.enqueue` |
| Haystack.EnqueueAsWritten | lib/haystack.rb:72-75 | the world `Haystack.Enqueue` gives, but raising `NoMethodError` exactly for an ignored frontend error report while active |
| Haystack.JsCompleteAsWritten | lib/haystack/js_exception_transaction.rb:42-44 | `complete!` raises to its caller exactly when the API is active and the report's action is ignored |
| Haystack.ForwardedArrivesConverted | lib/haystack/transaction.rb:182-184 | a worker's reportable transaction arrives in the master converted and is buffered there |
| Haystack.IpcServerStart | lib/haystack/ipc.rb:17-27 | the server listens on the URI for this process and the configured root |
| Haystack.IpcForked | lib/haystack/ipc.rb:6-10 | server stopped, client started against its last URI, agent thread stopped; raises after the first two without an agent |
| Haystack.ForkedWorkerForwards | lib/haystack/ipc.rb:6-10 | after the fork a worker's reportable transactions go to the master, converted |
| Haystack.Record | lib/haystack/agent.rb:73-81 | `process_action` and `perform_job` events become primary; the event is added unless paused; a `perform_job` event raises `NoMethodError` exactly when its queue start is truthy without `to_f` |
| Haystack.Notify | lib/haystack/agent.rb:67-82 | an event reaches the current transaction only while the agent is subscribed and some line of its name starts with a character other than "!" (`/^[^!]/` applied by `Regexp#===`); otherwise, and without a current transaction, nothing changes |
| Haystack.BangEventsUnheard | lib/haystack/agent.rb:69-70 | single-line events whose names start with "!" are never recorded |
| Haystack.MultiLineBangHeard | lib/haystack/agent.rb:69-70 | the pattern's `^` matches after every newline, so "!a\nb" is heard while "!a" and the empty name are not |
| Haystack.Matches | lib/haystack/agent.rb:69-70 | `/^[^!]/ === name`: some line of the name starts with a character other than "!"; its contract states that a name whose first character is not "!" always matches and that the empty name never does |
| Haystack.UnsubscribedRecordsNothing | lib/haystack/agent.rb:91-95 | after `unsubscribe`, or without an agent, nothing published is recorded |
| Haystack.ShutdownRecordsNothing | lib/haystack/agent.rb:166-170 | after `shutdown` nothing published is recorded |
| Haystack.PausedCurrentIgnoresNotifications | lib/haystack/transaction.rb:99-101 | plain events published while the current transaction is paused change nothing |
| Haystack.AddException | lib/haystack.rb:116-122 | nothing when inactive, without a current transaction, for nil or for an ignored class; otherwise the current transaction records it |
| Haystack.TagRequest | lib/haystack.rb:124-130 | nil when inactive, false without a current transaction, otherwise the merged tags, every given tag winning |
| Haystack.ExceptionTransaction | lib/haystack.rb:109-111 | a fresh transaction without an environment holding the exception and the tags, reportable |
| Haystack.SendException | lib/haystack.rb:103-114 | nothing when inactive, ignored or not an exception; otherwise the new transaction is completed and unregistered and the queue sent |
| Haystack.SendExceptionSends | lib/haystack.rb:109-113 | without an IPC client the new transaction is completed into this process's agent and the queue sent at once |
| Haystack.SendExceptionBatch | lib/haystack.rb:109-113 | with nothing buffered before, the batch sent is exactly the new exception transaction |
| Haystack.SendExceptionDetachesCurrent | lib/haystack.rb:109-112 | called while a request's transaction is current, it leaves none current and that transaction can no longer be completed |
| Haystack.WithoutInstrumentation | lib/haystack.rb:182-187 | pause before, resume the then-current transaction after, whether the block returned or raised, the block's exception passed on |
| Haystack.WithoutInstrumentationRecordsNothing | lib/haystack.rb:182-187 | plain events inside the block are not recorded and the transaction comes out unpaused |
| Haystack.Instrument | lib/haystack.rb:85-87 | the event is published after the block whether it returned or raised; an exception from the subscriber replaces the block's; an event nobody hears leaves the outcome as it was |
| Haystack.Conclude | lib/haystack.rb:88-93 | an exception is added to the current transaction and raised again; the current transaction is completed in every case, and an exception from completing wins |
| Haystack.MonitorTransaction | lib/haystack.rb:77-94 | when inactive only the block runs; when active the instrumented block is concluded: its exception added and raised again, the current transaction completed in every case |
| Haystack.InstrumentKeepsCurrent | lib/haystack.rb:85-87 | publishing the instrument event keeps the transaction current, registered under its own id, and the API active |
| Haystack.ConcludeCompletes | lib/haystack.rb:88-93 | the transaction is completed and unregistered, and the call raises exactly when the block did |
| Haystack.ConcludeReports | lib/haystack.rb:88-92 | an exception that is not ignored ends up on the buffered transaction and comes out again |
| Haystack.ConcludeBuffers | lib/haystack.rb:92-93 | a block that returned with a reportable transaction whose action is not ignored has that transaction buffered last |
| Haystack.MonitorCompletes | lib/haystack.rb:83-93 | the transaction is always completed and unregistered, and the call raises exactly when the block or the subscriber did |
| Haystack.MonitorReports | lib/haystack.rb:88-92 | when the block or the subscriber raised an exception that is not ignored, the buffered transaction carries it and the same exception comes out |
| Haystack.InstrumentRecordsJob | lib/haystack/agent.rb:73-81 | a `perform_job` event heard over a returned block makes the current transaction a background job with that primary event and a "class#method" action |
| Haystack.MonitorRecordsJob | lib/haystack/integrations/delayed_job.rb:21-34 | a job run through `monitor_transaction("perform_job...")` is buffered as a background job whose primary event is the instrument event |

## Left out

- The agent's background thread: `start_thread`, `stop_thread`, `restart_thread`, the random initial sleep, the sleeps, `Thread.kill` and the mutex around the swap. Thread state is the `threadAlive` flag, and one loop iteration is `Agent.Tick`.
- The shutdown codes kill the agent thread itself in the source, because `shutdown` calls `stop_thread` from inside the pass. The model lets the pass run to its end instead, because thread interruption is not modelled.
- Subscribing and unsubscribing to `ActiveSupport::Notifications`: this is the `subscribed` flag, and `Haystack.Hears` joins it to the pattern `/^[^!]/` as `Regexp#===` applies it, matching at the start of any line of the name. The subscriber block itself is `Haystack.Record` and `Haystack.Notify`. The five-argument check is represented by taking an already built event.
- The transmitter (HTTP, TLS, proxies), the marker, Rack middleware, framework integrations, the generator and logging: outside the core. The transmitter is an oracle, and log lines are not modelled.
- `Formatter` (`to_hash`), `ParamsSanitizer`, `ZippedPayload`, the `Aggregator` class, `MopedEvent` and the middleware classes: collaborators given as functions. `DeleteBlanks` is modelled as removing the nil-valued payload entries.
- `Haystack.start`, `at_exit`, `load_integrations`, `load_instrumentations`, `initialize_extensions`, `start_logger`, `logger`, `post_processing_middleware` and `listen_for_exception`: bootstrap, I/O or a re-raising wrapper of `send_exception`.
- DRb itself: marshalling, the socket and failures of the remote call. `Haystack.ClientEnqueue` records what is sent.
- `Transaction#slower?` and `request`: not used by the core's decisions. `clear_events!` on a transaction is not modelled.
- Ruby floats: durations, thresholds and queue starts are exact reals, with no rounding.
- Values.StringToF: reads sign, integer digits and a fraction only; underscores and exponents are not modelled.
- Values.StringToI: reads leading blanks, a sign and digits only; underscores are not modelled.
- Event payloads are always hashes. `set_process_action_event` and `set_perform_job_event` return early for a nil payload, and that case is not represented.
- `to_f` of other objects: an `Obj` value carries the float its `to_f` returns, if it has one, rather than deriving it from the class.
- An `Agent.new` under an inactive configuration returns an object with no state. The model represents it as no agent, which gives the same `active?` answer.
- Environments hold strings only. Non-string `env` values (Rack's `rack.input` and similar) are not represented.
- Haystack.SendException: the uuid is a parameter. The registry entry stays the bare `Transaction.new(id, nil)`, while the transaction completed is a value that also holds the exception and the tags. No caller can observe the difference, because `complete!` unregisters that entry at once.
- Haystack.Enqueue: uses the corrected `Agent.EnqueueIntended`, so the `NoMethodError` that an ignored frontend error report raises in the source (see Findings) does not escape from it. `Haystack.EnqueueAsWritten` keeps that path.
- Haystack.JsComplete: likewise. `Haystack.JsCompleteAsWritten` shows the exception reaching the caller of `complete!`; lib/haystack/rack/js_exception_catcher.rb:13 does not rescue it, so the request fails.
- Haystack.MonitorTransaction: the `:exception` entry that `instrument` adds to the payload when the block raises is not modelled. The block's start and finish times and the instrumenter's id are parameters (`Haystack.Span`).
- Agent.MapQueuePace: the interval is given as the response-by-response fold, not as a closed product of powers of 1.5.

## Findings

| source | as written | input that shows it | evidently intended | confidence | as-written member | corrected member |
|---|---|---|---|---|---|---|
| lib/haystack/agent.rb:99-101 | the debug line for an ignored item interpolates `transaction.request_id` | a frontend error report (`JSExceptionTransaction`, which has no `request_id`) whose `action` is in `ignore_actions` | an ignored item of either kind is dropped silently | high, not executed | Agent.IgnoredFrontendReportRaises | Agent.EnqueueIntended |

`Haystack.Enqueue`, the path the rest of the model takes, uses the corrected
`Agent.EnqueueIntended`.

=== FILE: agent.dfy ===
/**
 * The agent's delivery bookkeeping: the active aggregator, the bounded retry
 * queue of serialized batches, the pacing interval and the lifecycle flags.
 * Each operation is a step function on `AgentState`. The background thread and
 * the notification subscription are reduced to the flags `threadAlive` and
 * `subscribed`; the transmitter is an oracle.
 *
 * `P` is the type of a serialized, compressed batch. Retry-queue entries are
 * `Option<P>`: an interrupted delivery pass leaves `nil` where it had already
 * delivered a batch.
 */
module Agent {
  import opened Values
  import opened Configuration
  import opened Aggregator
  import JsExceptions

  /** The bound on the retry queue. */
  const AGGREGATOR_LIMIT: nat := 3

  const DEVELOPMENT_SLEEP: real := 10.0
  const DEFAULT_SLEEP: real := 60.0

  /** The transmitter's answer to one delivery: a status string, one of the
      transport errors it lists as retryable, or any other exception. */
  datatype Response =
    | Code(code: string)
    | TransportError(name: string)
    | UnexpectedError(error: Thrown)

  datatype AgentState<P> = AgentState(
    active: bool,
    sleepTime: real,
    masterPid: nat,
    pid: nat,
    aggregator: seq<Queued>,
    queue: seq<Option<P>>,
    transmissionSuccessful: bool,
    subscribed: bool,
    threadAlive: bool,
    revision: Option<string>)

  /** `initialize`: nothing at all under an inactive config; otherwise an
      active agent in process `pid`, pacing at 10 s in development and 60 s
      elsewhere, with empty buffers. */
  function New<P>(config: Config, pid: nat, appRevision: Option<string>): (r: Option<AgentState<P>>)
    ensures r.Some? <==> config.active
    ensures r.Some? ==> r.value.active && r.value.pid == pid && r.value.masterPid == pid
    ensures r.Some? ==> r.value.aggregator == [] && r.value.queue == [] && r.value.transmissionSuccessful
    ensures r.Some? ==> r.value.sleepTime == (if config.env == "development" then DEVELOPMENT_SLEEP else DEFAULT_SLEEP)
    ensures r.Some? ==> r.value.subscribed && r.value.threadAlive && r.value.revision == appRevision
  {
    if !config.active then None
    else Some(AgentState(true, if config.env == "development" then DEVELOPMENT_SLEEP else DEFAULT_SLEEP,
                         pid, pid, [], [], true, true, true, appRevision))
  }

  // ---------------------------------------------------------------------------
  // Response handling

  /** The codes that stop the agent for good. */
  predicate IsShutdownCode(c: int) {
    c == 429 || c == 406 || c == 402 || c == 401
  }

  /** The codes after which the batch is dropped from the queue. */
  predicate Acknowledged(c: int) {
    c == 200 || c == 420 || c == 413 || IsShutdownCode(c) || c == 400
  }

  /** `shutdown(false, reason)`: inactive, unsubscribed, thread stopped. */
  function Deactivate<P>(s: AgentState<P>): (r: AgentState<P>)
    ensures !r.active && !r.subscribed && !r.threadAlive
    ensures r.(active := s.active, subscribed := s.subscribed, threadAlive := s.threadAlive) == s
  {
    s.(active := false, subscribed := false, threadAlive := false)
  }

  /** The `case` of `handle_result` on the integer status `c`. */
  function HandleStatus<P>(s: AgentState<P>, c: int): (r: (AgentState<P>, bool))
    ensures r.1 <==> Acknowledged(c)
    ensures c == 200 || c == 400 || !Acknowledged(c) ==> r.0 == s
    ensures c == 420 ==> r.0 == s.(sleepTime := s.sleepTime * 1.5)
    ensures c == 413 ==> r.0 == s.(sleepTime := s.sleepTime / 1.5)
    ensures IsShutdownCode(c) ==> r.0 == Deactivate(s)
  {
    if c == 200 then (s, true)
    else if c == 420 then (s.(sleepTime := s.sleepTime * 1.5), true)
    else if c == 413 then (s.(sleepTime := s.sleepTime / 1.5), true)
    else if IsShutdownCode(c) then (Deactivate(s), true)
    else if c == 400 then (s, true)
    else (s, false)
  }

  /** `handle_result`: what one status code does to the agent, and whether the
      batch counts as delivered (true) or stays queued (false). */
  function HandleResult<P>(s: AgentState<P>, code: string): (r: (AgentState<P>, bool))
    ensures r.1 <==> Acknowledged(StringToI(code))
    ensures StringToI(code) == 200 ==> r.0 == s
    ensures StringToI(code) == 420 ==> r.0 == s.(sleepTime := s.sleepTime * 1.5)
    ensures StringToI(code) == 413 ==> r.0 == s.(sleepTime := s.sleepTime / 1.5)
    ensures IsShutdownCode(StringToI(code)) ==> r.0 == Deactivate(s)
    ensures StringToI(code) == 400 ==> r.0 == s
    ensures !Acknowledged(StringToI(code)) ==> r.0 == s
    ensures r.0.queue == s.queue && r.0.aggregator == s.aggregator
    ensures r.0.active ==> s.active
    ensures r.0.subscribed ==> s.subscribed
    ensures r.0.threadAlive ==> s.threadAlive
    ensures r.0.sleepTime == Paced(s.sleepTime, Code(code))
  {
    HandleStatus(s, StringToI(code))
  }

  // ---------------------------------------------------------------------------
  // The retry queue

  /** `add_to_aggregator_queue`: the new batch goes first. */
  function PushFront<P>(q: seq<Option<P>>, payload: P): (r: seq<Option<P>>)
    ensures |r| == |q| + 1 && r[0] == Some(payload) && r[1..] == q
  {
    [Some(payload)] + q
  }

  /** `truncate_aggregator_queue`: at most `limit` entries, the first ones. */
  function TruncateQueue<P>(q: seq<Option<P>>, limit: nat): (r: seq<Option<P>>)
    ensures |r| <= limit && r <= q
    ensures |q| <= limit ==> r == q
    ensures |q| > limit ==> |r| == limit
  {
    if |q| <= limit then q else q[..limit]
  }

  /** Pushing batches one by one, truncating after each, as consecutive
      undeliverable cycles do. */
  function PushAll<P>(q: seq<Option<P>>, batches: seq<P>): seq<Option<P>>
    decreases |batches|
  {
    if |batches| == 0 then q
    else PushAll(TruncateQueue(PushFront(q, batches[0]), AGGREGATOR_LIMIT), batches[1..])
  }

  /** Newest first: the batches of `batches`, last pushed first. */
  function NewestFirst<P>(batches: seq<P>): (r: seq<Option<P>>)
    ensures |r| == |batches|
    decreases |batches|
  {
    if |batches| == 0 then [] else NewestFirst(batches[1..]) + [Some(batches[0])]
  }

  /** Truncating a tail before prepending to it changes nothing once the
      whole is truncated. */
  lemma TruncateAppend<P>(x: seq<Option<P>>, y: seq<Option<P>>, limit: nat)
    ensures TruncateQueue(x + TruncateQueue(y, limit), limit) == TruncateQueue(x + y, limit)
  {
    var lhs := TruncateQueue(x + TruncateQueue(y, limit), limit);
    var rhs := TruncateQueue(x + y, limit);
    assert |lhs| == |rhs|;
    forall i | 0 <= i < |lhs|
      ensures lhs[i] == rhs[i]
    {
      if i >= |x| {
        assert lhs[i] == TruncateQueue(y, limit)[i - |x|];
      }
    }
  }

  /** Backpressure: however many batches fail in a row, the queue holds the
      three newest entries, newest first; the oldest are the ones dropped. */
  lemma {:induction false} PushAllKeepsNewest<P>(q: seq<Option<P>>, batches: seq<P>)
    requires |batches| > 0 || |q| <= AGGREGATOR_LIMIT
    ensures PushAll(q, batches) == TruncateQueue(NewestFirst(batches) + q, AGGREGATOR_LIMIT)
    ensures |PushAll(q, batches)| <= AGGREGATOR_LIMIT
    decreases |batches|
  {
    if |batches| > 0 {
      var q1 := TruncateQueue(PushFront(q, batches[0]), AGGREGATOR_LIMIT);
      PushAllKeepsNewest(q1, batches[1..]);
      var older := NewestFirst(batches[1..]);
      assert NewestFirst(batches) + q == older + ([Some(batches[0])] + q);
      TruncateAppend(older, PushFront(q, batches[0]), AGGREGATOR_LIMIT);
    }
  }

  /** `Array#any?`: some entry is not nil. */
  predicate AnyPresent<P>(q: seq<Option<P>>) {
    exists i :: 0 <= i < |q| && q[i].Some?
  }

  /** `compact`: the non-nil entries, in order. */
  function Compact<P>(q: seq<Option<P>>): (r: seq<Option<P>>)
    ensures |r| <= |q|
    ensures forall i :: 0 <= i < |r| ==> r[i].Some?
    ensures |r| == 0 <==> !AnyPresent(q)
  {
    if |q| == 0 then []
    else if q[0].Some? then
      assert q[0].Some?;
      [q[0]] + Compact(q[1..])
    else
      assert forall i :: 1 <= i < |q| ==> q[i] == q[1..][i - 1];
      Compact(q[1..])
  }

  /** How many entries of `q` are present. */
  function CountPresent<P>(q: seq<Option<P>>): nat {
    if |q| == 0 then 0 else (if q[0].Some? then 1 else 0) + CountPresent(q[1..])
  }

  /** `compact` keeps every present entry and nothing else, in order: the
      present entry at position `i` lands at the position given by the number of
      present entries before it. */
  lemma {:induction false} CompactExact<P>(q: seq<Option<P>>)
    ensures |Compact(q)| == CountPresent(q)
    ensures forall i :: 0 <= i < |q| && q[i].Some? ==>
              CountPresent(q[..i]) < |Compact(q)| && Compact(q)[CountPresent(q[..i])] == q[i]
  {
    if |q| > 0 {
      var tail := q[1..];
      CompactExact(tail);
      forall i | 0 <= i < |q| && q[i].Some?
        ensures CountPresent(q[..i]) < |Compact(q)| && Compact(q)[CountPresent(q[..i])] == q[i]
      {
        if i > 0 {
          assert q[..i][1..] == tail[..i - 1];
          assert tail[i - 1] == q[i];
        } else {
          assert q[..i] == [];
        }
      }
    }
  }

  // ---------------------------------------------------------------------------
  // One delivery pass

  /** The result of mapping over the queue: the agent after every response
      handled, the entries as mapped (nil for a delivered batch), and the
      exception that cut the pass short, if any. */
  datatype Pass<P> = Pass(agent: AgentState<P>, mapped: seq<Option<P>>, error: Option<Thrown>)

  /** The oracle transmitter: the response to the delivery of entry `i` of the
      pass. */
  type Transmitter<!P> = (nat, Option<P>) -> Response

  /** The block of `map!` for one entry whose transmission returned or raised
      one of the listed transport errors: the agent after the response, and the
      entry as mapped. */
  function Visit<P>(s: AgentState<P>, entry: Option<P>, response: Response): (r: (AgentState<P>, Option<P>))
    requires !response.UnexpectedError?
    ensures r.1 == (if Retained(response) then entry else None)
    ensures r.1.None? || r.1 == entry
    ensures r.0.sleepTime == Paced(s.sleepTime, response)
    ensures r.0.active <==> s.active && !(response.Code? && IsShutdownCode(StringToI(response.code)))
    ensures r.0.queue == s.queue && r.0.aggregator == s.aggregator
    ensures r.0.transmissionSuccessful == s.transmissionSuccessful
    ensures r.0.subscribed ==> s.subscribed
    ensures r.0.threadAlive ==> s.threadAlive
  {
    match response
    case TransportError(_) => (s, entry)
    case Code(c) =>
      var (s1, delivered) := HandleResult(s, c);
      (s1, if delivered then None else entry)
  }

  /** `@aggregator_queue.map! { ... }` from position `from`: each entry is
      transmitted; a handled code maps it to nil when delivered, a listed
      transport error keeps it, and any other exception stops the pass with the
      remaining entries untouched. */
  function MapQueue<P>(s: AgentState<P>, q: seq<Option<P>>, from: nat, transmit: Transmitter<P>): (r: Pass<P>)
    requires from <= |q|
    ensures |r.mapped| == |q| - from
    ensures forall i :: 0 <= i < |r.mapped| ==> r.mapped[i].None? || r.mapped[i] == q[from + i]
    ensures r.agent.queue == s.queue && r.agent.aggregator == s.aggregator
    ensures r.agent.transmissionSuccessful == s.transmissionSuccessful
    ensures r.agent.active ==> s.active
    ensures r.agent.subscribed ==> s.subscribed
    ensures r.agent.threadAlive ==> s.threadAlive
    decreases |q| - from
  {
    if from == |q| then Pass(s, [], None)
    else
      var response := transmit(from, q[from]);
      if response.UnexpectedError? then Pass(s, q[from..], Some(response.error))
      else
        var (s1, entry) := Visit(s, q[from], response);
        var rest := MapQueue(s1, q, from + 1, transmit);
        var mapped := [entry] + rest.mapped;
        assert forall i :: 0 < i < |mapped| ==> mapped[i] == rest.mapped[i - 1];
        Pass(rest.agent, mapped, rest.error)
  }

  /** Whether a response leaves its batch in the queue. */
  predicate Retained(r: Response) {
    r.TransportError? || (r.Code? && !Acknowledged(StringToI(r.code)))
  }

  /** Entry `k` is the first from `from` on whose transmission raises an
      exception the pass does not handle. */
  predicate StopsAt<P>(q: seq<Option<P>>, from: nat, k: nat, transmit: Transmitter<P>) {
    from <= k < |q| && transmit(k, q[k]).UnexpectedError? &&
    forall j :: from <= j < k ==> !transmit(j, q[j]).UnexpectedError?
  }

  /** A pass stopped by entry `k` propagates that entry's exception and leaves
      it and every later entry as it was. */
  lemma {:induction false} MapQueueStops<P>(s: AgentState<P>, q: seq<Option<P>>, from: nat, transmit: Transmitter<P>, k: nat)
    requires StopsAt(q, from, k, transmit)
    ensures MapQueue(s, q, from, transmit).error == Some(transmit(k, q[k]).error)
    ensures MapQueue(s, q, from, transmit).mapped[k - from..] == q[k..]
    decreases k - from
  {
    if from < k {
      assert !transmit(from, q[from]).UnexpectedError?;
      var (next, head) := Visit(s, q[from], transmit(from, q[from]));
      MapQueueStops(next, q, from + 1, transmit, k);
      var rest := MapQueue(next, q, from + 1, transmit);
      assert MapQueue(s, q, from, transmit).mapped == [head] + rest.mapped;
      assert ([head] + rest.mapped)[k - from..] == rest.mapped[k - (from + 1)..];
    }
  }

  /** A pass is interrupted exactly when some entry stops it. */
  lemma {:induction false} InterruptedStops<P>(q: seq<Option<P>>, from: nat, transmit: Transmitter<P>)
    requires from <= |q|
    ensures Interrupted(q, from, transmit) <==> exists k: nat :: StopsAt(q, from, k, transmit)
    decreases |q| - from
  {
    forall k: nat | StopsAt(q, from, k, transmit) ensures Interrupted(q, from, transmit) {
      StopperInterrupts(q, from, transmit, k);
    }
    if from < |q| {
      if transmit(from, q[from]).UnexpectedError? {
        assert StopsAt(q, from, from, transmit);
      } else if Interrupted(q, from + 1, transmit) {
        InterruptedStops(q, from + 1, transmit);
        var k: nat :| StopsAt(q, from + 1, k, transmit);
        assert StopsAt(q, from, k, transmit);
      }
    }
  }

  lemma {:induction false} StopperInterrupts<P>(q: seq<Option<P>>, from: nat, transmit: Transmitter<P>, k: nat)
    requires StopsAt(q, from, k, transmit)
    ensures Interrupted(q, from, transmit)
    decreases k - from
  {
    if from < k {
      assert !transmit(from, q[from]).UnexpectedError?;
      StopperInterrupts(q, from + 1, transmit, k);
    }
  }

  /** Whether the pass from `from` on meets an exception it does not handle. */
  predicate Interrupted<P>(q: seq<Option<P>>, from: nat, transmit: Transmitter<P>)
    requires from <= |q|
    decreases |q| - from
  {
    from < |q| && (transmit(from, q[from]).UnexpectedError? || Interrupted(q, from + 1, transmit))
  }

  /** Reference definition of what survives a complete pass: the present
      entries whose response kept them, in their original order. */
  function Survivors<P>(q: seq<Option<P>>, from: nat, transmit: Transmitter<P>): seq<Option<P>>
    requires from <= |q|
    decreases |q| - from
  {
    if from == |q| then []
    else if q[from].Some? && Retained(transmit(from, q[from])) then [q[from]] + Survivors(q, from + 1, transmit)
    else Survivors(q, from + 1, transmit)
  }

  /** The pacing interval after one response: ×1.5 on 420, ÷1.5 on 413. */
  function Paced(t: real, r: Response): real {
    if !r.Code? then t
    else
      var c := StringToI(r.code);
      if c == 420 then t * 1.5 else if c == 413 then t / 1.5 else t
  }

  /** The pacing interval after each response of a pass in turn, up to the
      first unhandled exception. */
  function PacedAll<P>(t: real, q: seq<Option<P>>, from: nat, transmit: Transmitter<P>): real
    requires from <= |q|
    decreases |q| - from
  {
    if from == |q| || transmit(from, q[from]).UnexpectedError? then t
    else PacedAll(Paced(t, transmit(from, q[from])), q, from + 1, transmit)
  }

  /** The interval never reaches zero: a positive interval stays positive. */
  lemma {:induction false} PacedAllPositive<P>(t: real, q: seq<Option<P>>, from: nat, transmit: Transmitter<P>)
    requires from <= |q| && t > 0.0
    ensures PacedAll(t, q, from, transmit) > 0.0
    decreases |q| - from
  {
    if from < |q| && !transmit(from, q[from]).UnexpectedError? {
      PacedAllPositive(Paced(t, transmit(from, q[from])), q, from + 1, transmit);
    }
  }

  /** Whether some response before the first unhandled exception is a shutdown code. */
  predicate StopsAgent<P>(q: seq<Option<P>>, from: nat, transmit: Transmitter<P>)
    requires from <= |q|
    decreases |q| - from
  {
    from < |q| && !transmit(from, q[from]).UnexpectedError? &&
    ((transmit(from, q[from]).Code? && IsShutdownCode(StringToI(transmit(from, q[from]).code)))
     || StopsAgent(q, from + 1, transmit))
  }

  /** An uninterrupted pass maps exactly the survivors to themselves and
      everything else to nil. */
  lemma {:induction false} MapQueueSurvivors<P>(s: AgentState<P>, q: seq<Option<P>>, from: nat, transmit: Transmitter<P>)
    requires from <= |q|
    requires !Interrupted(q, from, transmit)
    ensures MapQueue(s, q, from, transmit).error.None?
    ensures Compact(MapQueue(s, q, from, transmit).mapped) == Survivors(q, from, transmit)
    decreases |q| - from
  {
    if from < |q| {
      var (next, head) := Visit(s, q[from], transmit(from, q[from]));
      MapQueueSurvivors(next, q, from + 1, transmit);
      var rest := MapQueue(next, q, from + 1, transmit);
      assert MapQueue(s, q, from, transmit).mapped == [head] + rest.mapped;
      assert ([head] + rest.mapped)[1..] == rest.mapped;
    }
  }

  /** The pacing interval after a pass is the interval before it taken
      through every handled response in queue order. */
  lemma {:induction false} MapQueuePace<P>(s: AgentState<P>, q: seq<Option<P>>, from: nat, transmit: Transmitter<P>)
    requires from <= |q|
    ensures MapQueue(s, q, from, transmit).agent.sleepTime == PacedAll(s.sleepTime, q, from, transmit)
    decreases |q| - from
  {
    if from < |q| {
      var r := transmit(from, q[from]);
      if !r.UnexpectedError? {
        MapQueuePace(Visit(s, q[from], r).0, q, from + 1, transmit);
      }
    }
  }

  /** After a pass the agent is active exactly when it was before and no
      handled response was a shutdown code. */
  lemma {:induction false} MapQueueActive<P>(s: AgentState<P>, q: seq<Option<P>>, from: nat, transmit: Transmitter<P>)
    requires from <= |q|
    ensures MapQueue(s, q, from, transmit).agent.active <==> s.active && !StopsAgent(q, from, transmit)
    decreases |q| - from
  {
    if from < |q| {
      var r := transmit(from, q[from]);
      if !r.UnexpectedError? {
        MapQueueActive(Visit(s, q[from], r).0, q, from + 1, transmit);
      }
    }
  }

  /** `send_aggregators`: one pass over the queue. When it completes, the queue
      keeps the present entries that were not delivered and the pass counts as
      successful exactly when none remain. An exception it does not handle
      leaves the entries as mapped so far, nils included, and the success flag
      as it was, and propagates. */
  function SendAggregators<P>(s: AgentState<P>, transmit: Transmitter<P>): (r: Step<AgentState<P>>)
    ensures !Interrupted(s.queue, 0, transmit) ==>
              r.Done? && r.state.queue == Survivors(s.queue, 0, transmit) &&
              (r.state.transmissionSuccessful <==> |r.state.queue| == 0)
    ensures Interrupted(s.queue, 0, transmit) ==>
              r.Raised? && |r.state.queue| == |s.queue| && r.state.transmissionSuccessful == s.transmissionSuccessful &&
              (forall i :: 0 <= i < |s.queue| ==> r.state.queue[i].None? || r.state.queue[i] == s.queue[i])
    ensures forall k: nat :: StopsAt(s.queue, 0, k, transmit) ==>
              r.Raised? && r.error == transmit(k, s.queue[k]).error && r.state.queue[k..] == s.queue[k..]
    ensures r.state.sleepTime == PacedAll(s.sleepTime, s.queue, 0, transmit)
    ensures r.state.active <==> s.active && !StopsAgent(s.queue, 0, transmit)
    ensures r.state.aggregator == s.aggregator
    ensures r.state.subscribed ==> s.subscribed
    ensures r.state.threadAlive ==> s.threadAlive
  {
    var pass := MapQueue(s, s.queue, 0, transmit);
    MapQueuePace(s, s.queue, 0, transmit);
    MapQueueActive(s, s.queue, 0, transmit);
    InterruptedIffError(s, s.queue, 0, transmit);
    MapQueueStopsEverywhere(s, transmit);
    match pass.error
    case Some(e) => Raised(pass.agent.(queue := pass.mapped), e)
    case None =>
      MapQueueSurvivors(s, s.queue, 0, transmit);
      var kept := Compact(pass.mapped);
      Done(pass.agent.(queue := kept, transmissionSuccessful := |kept| == 0))
  }

  lemma MapQueueStopsEverywhere<P>(s: AgentState<P>, transmit: Transmitter<P>)
    ensures forall k: nat :: StopsAt(s.queue, 0, k, transmit) ==>
              MapQueue(s, s.queue, 0, transmit).error == Some(transmit(k, s.queue[k]).error) &&
              MapQueue(s, s.queue, 0, transmit).mapped[k..] == s.queue[k..]
  {
    forall k: nat | StopsAt(s.queue, 0, k, transmit)
      ensures MapQueue(s, s.queue, 0, transmit).error == Some(transmit(k, s.queue[k]).error)
      ensures MapQueue(s, s.queue, 0, transmit).mapped[k..] == s.queue[k..]
    {
      MapQueueStops(s, s.queue, 0, transmit, k);
    }
  }

  lemma {:induction false} InterruptedIffError<P>(s: AgentState<P>, q: seq<Option<P>>, from: nat, transmit: Transmitter<P>)
    requires from <= |q|
    ensures MapQueue(s, q, from, transmit).error.Some? <==> Interrupted(q, from, transmit)
    decreases |q| - from
  {
    if from < |q| {
      var r := transmit(from, q[from]);
      if !r.UnexpectedError? {
        InterruptedIffError(Visit(s, q[from], r).0, q, from + 1, transmit);
      }
    }
  }

  /** A batch whose response is a handled code is dropped, so at least one
      entry fewer survives the pass. */
  lemma AcknowledgedNotSurviving<P>(q: seq<Option<P>>, from: nat, transmit: Transmitter<P>, i: nat)
    requires from <= i < |q|
    requires transmit(i, q[i]).Code? && Acknowledged(StringToI(transmit(i, q[i]).code))
    ensures |Survivors(q, from, transmit)| <= |q| - from - 1
  {
    AcknowledgedDropped(transmit(i, q[i]));
    SurvivorsStep(q, i, transmit);
    SkippedNotSurviving(q, from, transmit, i);
  }

  /** When the filter skips entry `i`, at least one entry fewer survives. */
  lemma {:induction false} SkippedNotSurviving<P>(q: seq<Option<P>>, from: nat, transmit: Transmitter<P>, i: nat)
    requires from <= i < |q|
    requires Survivors(q, i, transmit) == Survivors(q, i + 1, transmit)
    ensures |Survivors(q, from, transmit)| <= |q| - from - 1
    decreases |q| - from
  {
    var here := |Survivors(q, from, transmit)|;
    var rest := |Survivors(q, from + 1, transmit)|;
    if from < i {
      assert here <= 1 + rest by { SurvivorsStep(q, from, transmit); }
      assert rest <= |q| - from - 2 by { SkippedNotSurviving(q, from + 1, transmit, i); }
    } else {
      assert rest <= |q| - from - 1 by { SurvivorsBound(q, from + 1, transmit); }
    }
  }

  lemma AcknowledgedDropped(r: Response)
    requires r.Code? && Acknowledged(StringToI(r.code))
    ensures !Retained(r)
  {
  }

  /** One step of the survivor filter: at most one entry more than the rest,
      and none when the response drops the entry. */
  lemma SurvivorsStep<P>(q: seq<Option<P>>, from: nat, transmit: Transmitter<P>)
    requires from < |q|
    ensures |Survivors(q, from, transmit)| <= 1 + |Survivors(q, from + 1, transmit)|
    ensures !Retained(transmit(from, q[from])) ==> Survivors(q, from, transmit) == Survivors(q, from + 1, transmit)
  {
  }

  /** When every response is a handled code, nothing survives: the queue
      empties and the pass counts as successful. */
  lemma AllAcknowledgedEmpties<P>(q: seq<Option<P>>, from: nat, transmit: Transmitter<P>)
    requires from <= |q|
    requires forall i :: from <= i < |q| ==> transmit(i, q[i]).Code? && Acknowledged(StringToI(transmit(i, q[i]).code))
    ensures Survivors(q, from, transmit) == []
    ensures !Interrupted(q, from, transmit)
  {
    forall i | from <= i < |q|
      ensures Survivors(q, i, transmit) == Survivors(q, i + 1, transmit)
    {
      AcknowledgedDropped(transmit(i, q[i]));
      SurvivorsStep(q, i, transmit);
    }
    AllSkipped(q, from, transmit);
    NoUnexpectedErrors(q, from, transmit);
  }

  /** When the filter skips every entry, nothing survives. */
  lemma {:induction false} AllSkipped<P>(q: seq<Option<P>>, from: nat, transmit: Transmitter<P>)
    requires from <= |q|
    requires forall i :: from <= i < |q| ==> Survivors(q, i, transmit) == Survivors(q, i + 1, transmit)
    ensures Survivors(q, from, transmit) == []
    decreases |q| - from
  {
    if from < |q| {
      AllSkipped(q, from + 1, transmit);
    }
  }

  /** A pass in which no transmission raises an unexpected exception runs to the end. */
  lemma {:induction false} NoUnexpectedErrors<P>(q: seq<Option<P>>, from: nat, transmit: Transmitter<P>)
    requires from <= |q|
    requires forall i :: from <= i < |q| ==> !transmit(i, q[i]).UnexpectedError?
    ensures !Interrupted(q, from, transmit)
    decreases |q| - from
  {
    if from < |q| {
      NoUnexpectedErrors(q, from + 1, transmit);
    }
  }

  /** When every delivery fails with a listed transport error, nothing is
      lost: every present entry survives, in order. */
  lemma {:induction false} TransportErrorsKeepAll<P>(q: seq<Option<P>>, from: nat, transmit: Transmitter<P>)
    requires from <= |q|
    requires forall i :: from <= i < |q| ==> transmit(i, q[i]).TransportError?
    ensures Survivors(q, from, transmit) == Compact(q[from..])
    ensures !Interrupted(q, from, transmit)
    decreases |q| - from
  {
    if from < |q| {
      TransportErrorsKeepAll(q, from + 1, transmit);
      assert q[from..][1..] == q[from + 1..];
    }
  }

  lemma {:induction false} SurvivorsBound<P>(q: seq<Option<P>>, from: nat, transmit: Transmitter<P>)
    requires from <= |q|
    ensures |Survivors(q, from, transmit)| <= |q| - from
    decreases |q| - from
  {
    if from < |q| {
      SurvivorsBound(q, from + 1, transmit);
    }
  }

  // ---------------------------------------------------------------------------
  // Sending, ticking, forking, shutting down

  /** `send_queue`: nothing when the aggregator is empty and the queue has no
      present entry. Otherwise the aggregator is swapped for an empty one, the
      detached batch is packed (post-processed, serialized and compressed, a
      collaborator that may raise, losing the batch), pushed to the front of the
      queue and a delivery pass runs; exceptions are logged, never raised. */
  function SendQueue<P>(s: AgentState<P>, pack: seq<Queued> -> Option<P>, transmit: Transmitter<P>): (r: AgentState<P>)
    ensures !HasTransactions(s.aggregator) && !AnyPresent(s.queue) ==> r == s
    ensures HasTransactions(s.aggregator) || AnyPresent(s.queue) ==> r.aggregator == []
    ensures r.active ==> s.active
    ensures r.subscribed ==> s.subscribed
    ensures r.threadAlive ==> s.threadAlive
    ensures (HasTransactions(s.aggregator) || AnyPresent(s.queue)) && pack(s.aggregator).None? ==>
              r == s.(aggregator := [])
    ensures (HasTransactions(s.aggregator) || AnyPresent(s.queue)) && pack(s.aggregator).Some? ==>
              r == SendAggregators(s.(aggregator := [], queue := PushFront(s.queue, pack(s.aggregator).value)), transmit).state
  {
    if !(HasTransactions(s.aggregator) || AnyPresent(s.queue)) then s
    else
      var detached := s.aggregator;
      var s1 := s.(aggregator := []);
      match pack(detached)
      case None => s1
      case Some(payload) => SendAggregators(s1.(queue := PushFront(s1.queue, payload)), transmit).state
  }

  /** The body of the background loop: send when something is pending, then
      bound the queue. */
  function Tick<P>(s: AgentState<P>, pack: seq<Queued> -> Option<P>, transmit: Transmitter<P>): (r: AgentState<P>)
    ensures |r.queue| <= AGGREGATOR_LIMIT
    ensures !HasTransactions(s.aggregator) && !AnyPresent(s.queue) ==> r == s.(queue := TruncateQueue(s.queue, AGGREGATOR_LIMIT))
    ensures r.active ==> s.active
  {
    var s1 := if HasTransactions(s.aggregator) || AnyPresent(s.queue) then SendQueue(s, pack, transmit) else s;
    s1.(queue := TruncateQueue(s1.queue, AGGREGATOR_LIMIT))
  }

  /** No entry of the queue is nil. */
  predicate AllPresent<P>(q: seq<Option<P>>) {
    forall i :: 0 <= i < |q| ==> q[i].Some?
  }

  /** `compact` leaves a queue without nils as it is. */
  lemma {:induction false} CompactAllPresent<P>(q: seq<Option<P>>)
    requires AllPresent(q)
    ensures Compact(q) == q
  {
    if |q| > 0 {
      assert forall i :: 0 <= i < |q[1..]| ==> q[1..][i] == q[i + 1];
      CompactAllPresent(q[1..]);
    }
  }

  /** One cycle in which the aggregator holds transactions, the packer
      succeeds and every delivery fails with a listed transport error is
      exactly "push the new batch in front, then truncate", provided the queue
      had no nils; the queue it leaves has none either. */
  lemma FailedCycle<P>(s: AgentState<P>, pack: seq<Queued> -> Option<P>, transmit: Transmitter<P>)
    requires AllPresent(s.queue)
    requires HasTransactions(s.aggregator) && pack(s.aggregator).Some?
    requires forall i, e :: transmit(i, e).TransportError?
    ensures Tick(s, pack, transmit).queue ==
              TruncateQueue(PushFront(s.queue, pack(s.aggregator).value), AGGREGATOR_LIMIT)
    ensures AllPresent(Tick(s, pack, transmit).queue)
  {
    FailedSend(s, pack, transmit);
  }

  /** The send of such a cycle, before truncation. */
  lemma FailedSend<P>(s: AgentState<P>, pack: seq<Queued> -> Option<P>, transmit: Transmitter<P>)
    requires AllPresent(s.queue)
    requires HasTransactions(s.aggregator) && pack(s.aggregator).Some?
    requires forall i, e :: transmit(i, e).TransportError?
    ensures SendQueue(s, pack, transmit).queue == PushFront(s.queue, pack(s.aggregator).value)
  {
    var q := PushFront(s.queue, pack(s.aggregator).value);
    assert forall i :: 1 <= i < |q| ==> q[i] == s.queue[i - 1];
    TransportErrorsKeepAll(q, 0, transmit);
    assert q[0..] == q;
    CompactAllPresent(q);
    var s1 := s.(aggregator := [], queue := q);
    assert SendQueue(s, pack, transmit) == SendAggregators(s1, transmit).state;
  }

  /** Consecutive loop iterations, the application having filled the
      aggregator with `fills[i]` before iteration `i`. */
  function RunCycles<P>(s: AgentState<P>, fills: seq<seq<Queued>>, pack: seq<Queued> -> Option<P>,
                        transmit: Transmitter<P>): AgentState<P>
    decreases |fills|
  {
    if |fills| == 0 then s
    else RunCycles(Tick(s.(aggregator := fills[0]), pack, transmit), fills[1..], pack, transmit)
  }

  /** A run of failed cycles pushes its batches one by one, truncating after
      each. */
  lemma {:induction false} FailedCyclesPushAll<P>(s: AgentState<P>, fills: seq<seq<Queued>>, pack: seq<Queued> -> Option<P>,
                                                  transmit: Transmitter<P>, batches: seq<P>)
    requires AllPresent(s.queue) && |batches| == |fills|
    requires forall i :: 0 <= i < |fills| ==> HasTransactions(fills[i]) && pack(fills[i]) == Some(batches[i])
    requires forall i, e :: transmit(i, e).TransportError?
    ensures RunCycles(s, fills, pack, transmit).queue == PushAll(s.queue, batches)
    decreases |fills|
  {
    if |fills| > 0 {
      var s0 := s.(aggregator := fills[0]);
      FailedCycle(s0, pack, transmit);
      assert forall i :: 0 <= i < |fills| - 1 ==> fills[1..][i] == fills[i + 1] && batches[1..][i] == batches[i + 1];
      FailedCyclesPushAll(Tick(s0, pack, transmit), fills[1..], pack, transmit, batches[1..]);
    }
  }

  /** Backpressure over the real loop: after any run of cycles that each
      packed a batch and failed to deliver anything, the queue holds the three
      newest entries, newest first. */
  lemma FailedCyclesKeepNewest<P>(s: AgentState<P>, fills: seq<seq<Queued>>, pack: seq<Queued> -> Option<P>,
                                  transmit: Transmitter<P>, batches: seq<P>)
    requires AllPresent(s.queue) && |s.queue| <= AGGREGATOR_LIMIT && |batches| == |fills|
    requires forall i :: 0 <= i < |fills| ==> HasTransactions(fills[i]) && pack(fills[i]) == Some(batches[i])
    requires forall i, e :: transmit(i, e).TransportError?
    ensures RunCycles(s, fills, pack, transmit).queue == TruncateQueue(NewestFirst(batches) + s.queue, AGGREGATOR_LIMIT)
  {
    FailedCyclesPushAll(s, fills, pack, transmit, batches);
    PushAllKeepsNewest(s.queue, batches);
  }

  /** `forked!`: active again in the new process with an empty aggregator,
      a new subscription and a new thread, which reads the application's
      revision from the environment again. The retry queue, the pacing
      interval and the success flag are inherited. */
  function Forked<P>(s: AgentState<P>, pid: nat, appRevision: Option<string>): (r: AgentState<P>)
    ensures r.active && r.pid == pid && r.aggregator == []
    ensures r.subscribed && r.threadAlive && r.revision == appRevision
    ensures r.queue == s.queue && r.sleepTime == s.sleepTime && r.masterPid == s.masterPid
    ensures r.transmissionSuccessful == s.transmissionSuccessful
  {
    s.(active := true, pid := pid, aggregator := [], subscribed := true, threadAlive := true, revision := appRevision)
  }

  /** `enqueue` as written: a fork is noticed first; an ignored action is not
      buffered, and its debug line asks the item for `request_id`, which a
      frontend error report does not have. */
  function Enqueue<P>(s: AgentState<P>, item: Queued, pid: nat, appRevision: Option<string>, config: Config): (r: Step<AgentState<P>>)
    ensures var base := if s.pid != pid then Forked(s, pid, appRevision) else s;
            (IsIgnoredAction(config, ActionOf(item)) ==> r.state == base) &&
            (IsIgnoredAction(config, ActionOf(item)) && item.Js? ==> r.Raised?) &&
            (IsIgnoredAction(config, ActionOf(item)) && item.Tx? ==> r.Done?) &&
            (!IsIgnoredAction(config, ActionOf(item)) ==> r == Done(base.(aggregator := base.aggregator + [item])))
  {
    var base := if s.pid != pid then Forked(s, pid, appRevision) else s;
    if IsIgnoredAction(config, ActionOf(item)) then
      match item
      case Tx(_) => Done(base)
      case Js(_) => Raised(base, NoMethod("request_id"))
    else Done(base.(aggregator := base.aggregator + [item]))
  }

  /** `enqueue` as intended: the same, except that an ignored item of either
      kind is dropped without raising. */
  function EnqueueIntended<P>(s: AgentState<P>, item: Queued, pid: nat, appRevision: Option<string>, config: Config): (r: AgentState<P>)
    ensures s.pid != pid ==> r.active && r.pid == pid && r.queue == s.queue && r.sleepTime == s.sleepTime && r.revision == appRevision
    ensures s.pid == pid ==> r.(aggregator := s.aggregator) == s
    ensures IsIgnoredAction(config, ActionOf(item)) ==> r.aggregator == (if s.pid != pid then [] else s.aggregator)
    ensures !IsIgnoredAction(config, ActionOf(item)) ==>
              |r.aggregator| >= 1 && r.aggregator[|r.aggregator| - 1] == item &&
              r.aggregator[..|r.aggregator| - 1] == (if s.pid != pid then [] else s.aggregator)
  {
    var base := if s.pid != pid then Forked(s, pid, appRevision) else s;
    if IsIgnoredAction(config, ActionOf(item)) then base
    else base.(aggregator := base.aggregator + [item])
  }

  /** The two agree on every item except an ignored frontend error report. */
  lemma EnqueueAgrees<P>(s: AgentState<P>, item: Queued, pid: nat, appRevision: Option<string>, config: Config)
    ensures Enqueue(s, item, pid, appRevision, config).state == EnqueueIntended(s, item, pid, appRevision, config)
    ensures !(IsIgnoredAction(config, ActionOf(item)) && item.Js?) <==>
            Enqueue(s, item, pid, appRevision, config) == Done(EnqueueIntended(s, item, pid, appRevision, config))
  {
  }

  /** An ignored frontend error report makes `enqueue` as written raise
      `NoMethodError`. */
  lemma IgnoredFrontendReportRaises<P>(s: AgentState<P>, j: JsExceptions.JsExceptionTransaction, pid: nat, appRevision: Option<string>, config: Config)
    requires IsIgnoredAction(config, ActionOf(Js(j)))
    ensures Enqueue(s, Js(j), pid, appRevision, config).Raised?
    ensures Enqueue(s, Js(j), pid, appRevision, config).error.className == "NoMethodError"
  {
  }

  /** `shutdown(flush)`: inactive, unsubscribed, thread stopped; a final send
      only when a flush is asked for and the last pass delivered everything. */
  function Shutdown<P>(s: AgentState<P>, flush: bool, pack: seq<Queued> -> Option<P>, transmit: Transmitter<P>): (r: AgentState<P>)
    ensures !r.active && !r.subscribed && !r.threadAlive
    ensures !(flush && s.transmissionSuccessful) ==> r == Deactivate(s)
    ensures flush && s.transmissionSuccessful ==> r == SendQueue(Deactivate(s), pack, transmit)
  {
    var d := Deactivate(s);
    if flush && d.transmissionSuccessful then SendQueue(d, pack, transmit) else d
  }

  /** A shutdown code is `shutdown(false)`: the agent stops and nothing is
      flushed, whatever the packer and the transmitter would do. */
  lemma ShutdownCodeStopsWithoutFlush<P>(s: AgentState<P>, code: string, pack: seq<Queued> -> Option<P>, transmit: Transmitter<P>)
    requires IsShutdownCode(StringToI(code))
    ensures HandleResult(s, code) == (Shutdown(s, false, pack, transmit), true)
    ensures !HandleResult(s, code).0.active && HandleResult(s, code).0.queue == s.queue
  {
  }

  /** The codes as the transmitter reports them, decimal strings, land in the
      intended branches. */
  lemma HandleResultOfStatus<P>(s: AgentState<P>, n: nat)
    ensures HandleResult(s, NatToDecimal(n)).1 <==> Acknowledged(n)
    ensures n == 420 ==> HandleResult(s, NatToDecimal(n)).0.sleepTime == s.sleepTime * 1.5
    ensures n == 413 ==> HandleResult(s, NatToDecimal(n)).0.sleepTime == s.sleepTime / 1.5
    ensures IsShutdownCode(n) ==> !HandleResult(s, NatToDecimal(n)).0.active
  {
    StringToIOfDecimal(n);
  }
}

=== FILE: aggregator.dfy ===
/**
 * What an aggregator buffers: completed transactions and frontend error
 * reports, in completion order. Both answer `action` and `events`, which is all
 * the agent and the post-processor ask of them.
 */
module Aggregator {
  import opened Values
  import Events
  import Transactions
  import JsExceptions

  datatype Queued =
    | Tx(t: Transactions.Transaction)
    | Js(j: JsExceptions.JsExceptionTransaction)

  function ActionOf(q: Queued): Value {
    match q
    case Tx(t) => t.action
    case Js(j) => JsExceptions.Action(j)
  }

  function EventsOf(q: Queued): seq<Events.Event> {
    match q
    case Tx(t) => t.events
    case Js(j) => JsExceptions.EventsOf(j)
  }

  /** `has_transactions?`. */
  predicate HasTransactions(buffer: seq<Queued>) {
    |buffer| > 0
  }
}

=== FILE: auth_check.dfy ===
/**
 * The authorization check run at install time: one empty transmission to
 * the `auth` action, and a message for the operator built from the status.
 */
module AuthCheck {
  import opened Values

  const ACTION: string := "auth"

  const CONFIRMED: string := "Haystack has confirmed authorization!"
  const INVALID_KEY: string := "API key not valid with Haystack..."
  const UNCONFIRMED_PREFIX: string := "Could not confirm authorization: "
  const FAILURE_PREFIX: string := "Something went wrong while trying to authenticate with Haystack: "

  /** What `transmit` did: returned some object (normally the HTTP status as
      a string), or raised. */
  datatype Outcome = Returned(status: Value) | Failed(error: Thrown)

  /** The transmitter, reduced to the answer for an action and a payload. */
  type Transmit = (string, Payload) -> Outcome

  /** `perform`: transmits an empty payload to the `auth` action. */
  function Perform(transmit: Transmit): (r: Outcome)
    ensures r == transmit("auth", map[])
  {
    transmit(ACTION, map[])
  }

  /** The operator message for a returned status; `case ... when` compares
      with `String#===`, so only the strings "200" and "401" are recognised. */
  function Message(status: Value): (m: string)
    ensures status == Str("200") <==> m == CONFIRMED
    ensures status == Str("401") <==> m == INVALID_KEY
    ensures status != Str("200") && status != Str("401") ==>
              m == UNCONFIRMED_PREFIX + (if status.Nil? then "nil" else ToS(status))
  {
    assert CONFIRMED[0] != INVALID_KEY[0];
    if status == Str("200") then CONFIRMED
    else if status == Str("401") then INVALID_KEY
    else
      var shown := if status.Nil? then "nil" else ToS(status);
      assert (UNCONFIRMED_PREFIX + shown)[0] == 'C' != CONFIRMED[0];
      assert INVALID_KEY[0] == 'A';
      UNCONFIRMED_PREFIX + shown
  }

  /** `perform_with_result`: the status and its message, or `nil` and the
      failure message when the transmission raised. */
  function PerformWithResult(transmit: Transmit): (r: (Value, string))
    ensures transmit(ACTION, map[]).Returned? ==> r == (transmit(ACTION, map[]).status, Message(transmit(ACTION, map[]).status))
    ensures transmit(ACTION, map[]).Failed? ==> r.0 == Nil && r.1 == FAILURE_PREFIX + transmit(ACTION, map[]).error.message
  {
    match Perform(transmit)
    case Returned(status) => (status, Message(status))
    case Failed(e) => (Nil, FAILURE_PREFIX + e.message)
  }

  /** The message names the status it was built from: any other status can be
      read back from the text after the prefix. */
  lemma MessageShowsStatus(status: string)
    requires status != "200" && status != "401"
    ensures var m := Message(Str(status));
            m[..|UNCONFIRMED_PREFIX|] == UNCONFIRMED_PREFIX && m[|UNCONFIRMED_PREFIX|..] == status
  {
  }

  /** The three outcomes an operator can see are told apart by their text. */
  lemma MessagesDistinct(status: Value)
    requires status != Str("200") && status != Str("401")
    ensures Message(status) != CONFIRMED && Message(status) != INVALID_KEY
    ensures CONFIRMED != INVALID_KEY
  {
    assert CONFIRMED[0] != INVALID_KEY[0];
  }

  /** The cases the module's own examples check: a transmitter answering
      "402", and one answering nothing. */
  lemma MessageExamples(transmit: Transmit)
    requires transmit(ACTION, map[]) == Returned(Str("402"))
    ensures PerformWithResult(transmit) == (Str("402"), "Could not confirm authorization: 402")
    ensures Message(Nil) == "Could not confirm authorization: nil"
  {
    assert ToS(Str("402")) == "402";
    assert Message(Str("402")) == UNCONFIRMED_PREFIX + "402";
    assert PerformWithResult(transmit) == (Str("402"), Message(Str("402")));
    assert UNCONFIRMED_PREFIX + "402" == "Could not confirm authorization: 402";
    assert Message(Str("402")) == "Could not confirm authorization: 402";
    assert Message(Nil) == UNCONFIRMED_PREFIX + "nil";
  }
}

=== FILE: config.dfy ===
/**
 * The slice of the loaded configuration the core reads. Configuration loading
 * and validation live outside the core; here a `Config` is just data.
 */
module Configuration {
  import opened Values

  datatype Config = Config(
    /** `config.active?`: whether the agent runs for the current environment. */
    active: bool,
    /** `config.env`, e.g. "production" or "development". */
    env: string,
    /** `config[:slow_request_threshold]`, in milliseconds. */
    slowRequestThreshold: real,
    /** `config[:ignore_actions]` and `config[:ignore_exceptions]`. */
    ignoreActions: seq<Value>,
    ignoreExceptions: seq<Value>,
    /** `config[:skip_session_data]` and `config[:send_params]`, as loaded. */
    skipSessionData: Value,
    sendParams: Value,
    /** `config.root_path`, the host project's directory. */
    rootPath: string)

  /** `is_ignored_action?`: the action is one of the configured ignored actions. */
  function IsIgnoredAction(config: Config, action: Value): (r: bool)
    ensures r <==> exists i :: 0 <= i < |config.ignoreActions| && config.ignoreActions[i] == action
  {
    action in config.ignoreActions
  }

  /** `is_ignored_exception?`: the class name of the object is one of the
      configured ignored exceptions. */
  function IsIgnoredException(config: Config, error: Thrown): (r: bool)
    ensures r <==> exists i :: 0 <= i < |config.ignoreExceptions| && config.ignoreExceptions[i] == Str(error.className)
  {
    Str(error.className) in config.ignoreExceptions
  }
}

=== FILE: event.dfy ===
/**
 * An instrumentation event: a named, timed span with a payload hash, as the
 * notification bus delivers it to the agent.
 */
module Events {
  import opened Values

  /** Which class `event_for_instrumentation` instantiated. */
  datatype EventClass = PlainEvent | MopedEvent

  datatype Event = Event(
    cls: EventClass,
    name: string,
    /** Start and end, in seconds since the epoch. */
    time: real,
    ending: real,
    transactionId: string,
    payload: Payload)

  /** `duration`: milliseconds between start and end. */
  function Duration(e: Event): real {
    1000.0 * (e.ending - e.time)
  }

  /** `sanitize!`: the payload becomes what the params sanitizer makes of it;
      name, class, timing and id stay as they were. */
  function Sanitize(e: Event, sanitize: Payload -> Payload): (r: Event)
    ensures r.payload == sanitize(e.payload)
    ensures r.cls == e.cls && r.name == e.name && r.time == e.time
    ensures r.ending == e.ending && r.transactionId == e.transactionId
  {
    e.(payload := sanitize(e.payload))
  }

  /** `truncate!`: the payload becomes the empty hash and nothing else changes. */
  function Truncate(e: Event): (r: Event)
    ensures r.payload == map[]
    ensures r.cls == e.cls && r.name == e.name && r.time == e.time
    ensures r.ending == e.ending && r.transactionId == e.transactionId
    ensures Duration(r) == Duration(e)
  {
    e.(payload := map[])
  }

  /** Truncating twice is truncating once. */
  lemma TruncateIdempotent(e: Event)
    ensures Truncate(Truncate(e)) == Truncate(e)
  {
  }

  /** `event_for_instrumentation(name, start, ending, id, payload)`: a moped
      event exactly for the name "query.moped", a plain event otherwise. The
      moped event's own constructor is a collaborator; it is given as the
      payload rewriting it performs. */
  function ForInstrumentation(name: string, time: real, ending: real, id: string, payload: Payload,
                              mopedPayload: Payload -> Payload): (r: Event)
    ensures r.cls == MopedEvent <==> name == "query.moped"
    ensures r.name == name && r.time == time && r.ending == ending && r.transactionId == id
    ensures r.cls == PlainEvent ==> r.payload == payload
  {
    if name == "query.moped" then Event(MopedEvent, name, time, ending, id, mopedPayload(payload))
    else Event(PlainEvent, name, time, ending, id, payload)
  }
}

=== FILE: haystack.dfy ===
/**
 * The process-wide state the public API works on, and the API itself: the
 * loaded configuration, the agent, the registry of open transactions, the
 * calling thread's current transaction id, and the IPC endpoints. Ruby keeps
 * these as module-level and thread-local globals; here they are the fields of
 * one `World` record that each operation maps to a new one.
 */
module Haystack {
  import opened Values
  import opened Configuration
  import Events
  import Transactions
  import JsExceptions
  import opened Aggregator
  import Agent
  import Ipc

  datatype World<P> = World(
    config: Option<Config>,
    agent: Option<Agent.AgentState<P>>,
    /** `Haystack.transactions`: the open transactions by request id. */
    transactions: map<string, Transactions.Transaction>,
    /** `Thread.current[:haystack_transaction_id]` of the calling thread. */
    currentId: Option<string>,
    server: Ipc.Server,
    client: Ipc.Client,
    /** The transactions this process has handed to the master through the
        IPC client, oldest first. */
    forwarded: seq<Transactions.Transaction>,
    /** `Process.pid`. */
    pid: nat,
    /** `ENV['APP_REVISION']` as the process reads it now. */
    appRevision: Option<string>)

  /** What a block run under the API did to the world, and whether it raised. */
  type Block<!P> = World<P> -> Step<World<P>>

  /** Everything an operation needs from outside the model: the collaborators a
      transaction calls, the clock, the packer and the transmitter. */
  datatype Env<!P> = Env(
    hooks: Transactions.Hooks,
    now: real,
    pack: seq<Queued> -> Option<P>,
    transmit: Agent.Transmitter<P>)

  // ---------------------------------------------------------------------------
  // Guards

  /** `active?`: a configuration that is active and an agent that is active. */
  function Active<P>(w: World<P>): (r: bool)
    ensures r <==> w.config.Some? && w.config.value.active && w.agent.Some? && w.agent.value.active
  {
    w.config.Some? && w.config.value.active && w.agent.Some? && w.agent.value.active
  }

  /** `Transaction.current`: the registry's entry for the current id. */
  function Current<P>(w: World<P>): (r: Option<Transactions.Transaction>)
    ensures r.Some? <==> w.currentId.Some? && w.currentId.value in w.transactions
    ensures r.Some? ==> r.value == w.transactions[w.currentId.value]
  {
    if w.currentId.Some? && w.currentId.value in w.transactions then Some(w.transactions[w.currentId.value]) else None
  }

  /** The current transaction, replaced by `f` of it. */
  function UpdateCurrent<P>(w: World<P>, f: Transactions.Transaction -> Transactions.Transaction): (r: World<P>)
    requires Current(w).Some?
    ensures Current(r) == Some(f(Current(w).value))
    ensures r.transactions.Keys == w.transactions.Keys
    ensures forall k :: k in w.transactions && Some(k) != w.currentId ==> r.transactions[k] == w.transactions[k]
    ensures r.(transactions := w.transactions) == w
  {
    w.(transactions := w.transactions[w.currentId.value := f(Current(w).value)])
  }

  // ---------------------------------------------------------------------------
  // Enqueueing and the registry

  /** `Haystack.enqueue`: nothing when inactive, otherwise the agent's
      `enqueue` (in its corrected form, which drops every ignored item
      silently). Nothing but the agent changes. */
  function Enqueue<P>(w: World<P>, item: Queued): (r: World<P>)
    ensures !Active(w) ==> r == w
    ensures r.(agent := w.agent) == w
    ensures r.agent.Some? <==> w.agent.Some?
    ensures Active(w) && IsIgnoredAction(w.config.value, ActionOf(item)) && w.agent.value.pid == w.pid ==> r == w
    ensures Active(w) && !IsIgnoredAction(w.config.value, ActionOf(item)) ==>
              var a := r.agent.value.aggregator; |a| > 0 && a[|a| - 1] == item
    ensures Active(w) && !IsIgnoredAction(w.config.value, ActionOf(item)) && w.agent.value.pid == w.pid ==>
              r.agent.value.aggregator == w.agent.value.aggregator + [item]
    ensures Active(w) && w.agent.value.pid != w.pid ==>
              r.agent.value.active && r.agent.value.pid == w.pid && r.agent.value.queue == w.agent.value.queue
  {
    if !Active(w) then w
    else w.(agent := Some(Agent.EnqueueIntended(w.agent.value, item, w.pid, w.appRevision, w.config.value)))
  }

  /** `Transaction.create`: a new transaction registered under `id`, which
      becomes the thread's current one. */
  function Create<P>(w: World<P>, id: string, env: Option<Transactions.Env>): (r: World<P>)
    ensures r.currentId == Some(id)
    ensures Current(r) == Some(Transactions.New(id, env, Transactions.NO_DEFAULTS))
    ensures r.transactions.Keys == w.transactions.Keys + {id}
    ensures forall k :: k in w.transactions && k != id ==> r.transactions[k] == w.transactions[k]
    ensures r.(transactions := w.transactions, currentId := w.currentId) == w
  {
    w.(transactions := w.transactions[id := Transactions.New(id, env, Transactions.NO_DEFAULTS)], currentId := Some(id))
  }

  /** `IPC::Client.enqueue`: the transaction goes to the master through the
      proxy; with no proxy the call is sent to nil and raises. */
  function ClientEnqueue<P>(w: World<P>, t: Transactions.Transaction): (r: Step<World<P>>)
    ensures w.client.server.Some? ==> r == Done(w.(forwarded := w.forwarded + [t]))
    ensures w.client.server.None? ==> r.Raised? && r.state == w && r.error.className == "NoMethodError"
  {
    if w.client.server.Some? then Done(w.(forwarded := w.forwarded + [t]))
    else Raised(w, NoMethod("enqueue"))
  }

  /** `IPC::Server.enqueue`, in the master: the transaction goes to
      `Haystack.enqueue`. */
  function ServerEnqueue<P>(w: World<P>, t: Transactions.Transaction): (r: World<P>)
    ensures r == Enqueue(w, Tx(t))
    ensures Active(w) && !IsIgnoredAction(w.config.value, t.action) ==>
              var a := r.agent.value.aggregator; |a| > 0 && a[|a| - 1] == Tx(t)
  {
    Enqueue(w, Tx(t))
  }

  /** Every open transaction is registered under its own request id, as
      `initialize` does it. */
  predicate WellKeyed<P>(w: World<P>) {
    forall k :: k in w.transactions ==> w.transactions[k].requestId == k
  }

  /** Whether `complete!` hands the transaction on at all. */
  predicate Reportable(t: Transactions.Transaction) {
    t.processActionEvent.Some? || Transactions.HasException(t)
  }

  /** `Transaction#complete!`: the thread's current id is cleared and the
      transaction leaves the registry, whatever follows. A transaction with a
      primary event or an exception is then handed on: converted and sent
      through the IPC client when that is active, otherwise enqueued here. */
  function Complete<P>(w: World<P>, t: Transactions.Transaction, hooks: Transactions.Hooks): (r: Step<World<P>>)
    ensures r.state.currentId.None? && t.requestId !in r.state.transactions
    ensures r.state.transactions == w.transactions - {t.requestId}
    ensures r.state.config == w.config && r.state.client == w.client && r.state.server == w.server
    ensures r.state.agent.Some? <==> w.agent.Some?
    ensures !Reportable(t) ==> r == Done(w.(currentId := None, transactions := w.transactions - {t.requestId}))
    ensures Reportable(t) && !w.client.active ==>
              r == Done(Enqueue(w.(currentId := None, transactions := w.transactions - {t.requestId}), Tx(t)))
    ensures Reportable(t) && w.client.active && w.client.server.Some? && w.config.Some? ==>
              r.Done? && r.state.forwarded == w.forwarded + [Transactions.Convert(t, w.config.value, hooks)] &&
              r.state.agent == w.agent
    ensures !(Reportable(t) && w.client.active) ==> r.state.forwarded == w.forwarded
  {
    var w1 := w.(currentId := None, transactions := w.transactions - {t.requestId});
    if !Reportable(t) then Done(w1)
    else if w1.client.active then
      if t.converted then ClientEnqueue(w1, t)
      else match w1.config
        case None => Raised(w1, NoMethod("[]"))
        case Some(c) => ClientEnqueue(w1, Transactions.Convert(t, c, hooks))
    else Done(Enqueue(w1, Tx(t)))
  }

  /** `Transaction.complete_current!`: completes the current transaction, if
      there is one; otherwise only logs. */
  function CompleteCurrent<P>(w: World<P>, hooks: Transactions.Hooks): (r: Step<World<P>>)
    ensures Current(w).None? ==> r == Done(w)
    ensures Current(w).Some? ==> r == Complete(w, Current(w).value, hooks)
    ensures Current(w).Some? && WellKeyed(w) ==> r.state.currentId.None? && w.currentId.value !in r.state.transactions
  {
    match Current(w)
    case None => Done(w)
    case Some(t) => Complete(w, t, hooks)
  }

  /** `JSExceptionTransaction#complete!`: straight to `Haystack.enqueue`. */
  function JsComplete<P>(w: World<P>, j: JsExceptions.JsExceptionTransaction): (r: World<P>)
    ensures r == Enqueue(w, Js(j))
    ensures Active(w) && !IsIgnoredAction(w.config.value, JsExceptions.Action(j)) ==>
              var a := r.agent.value.aggregator; |a| > 0 && a[|a| - 1] == Js(j)
  {
    Enqueue(w, Js(j))
  }

  /** `Haystack.enqueue` with the agent's `enqueue` as written: the same
      world, but an ignored frontend error report raises out of it. */
  function EnqueueAsWritten<P>(w: World<P>, item: Queued): (r: Step<World<P>>)
    ensures r.state == Enqueue(w, item)
    ensures r.Raised? <==> Active(w) && item.Js? && IsIgnoredAction(w.config.value, ActionOf(item))
    ensures r.Raised? ==> r.error.className == "NoMethodError"
  {
    if !Active(w) then Done(w)
    else
      Agent.EnqueueAgrees(w.agent.value, item, w.pid, w.appRevision, w.config.value);
      match Agent.Enqueue(w.agent.value, item, w.pid, w.appRevision, w.config.value)
      case Done(a) => Done(w.(agent := Some(a)))
      case Raised(a, e) => Raised(w.(agent := Some(a)), e)
  }

  /** `JSExceptionTransaction#complete!` as written: a report whose action is
      ignored escapes as `NoMethodError` to the caller, which does not rescue
      it. */
  function JsCompleteAsWritten<P>(w: World<P>, j: JsExceptions.JsExceptionTransaction): (r: Step<World<P>>)
    ensures r.state == JsComplete(w, j)
    ensures r.Raised? <==> Active(w) && IsIgnoredAction(w.config.value, JsExceptions.Action(j))
  {
    EnqueueAsWritten(w, Js(j))
  }

  /** A reportable transaction completed in a worker whose client runs arrives
      in the master converted, and the master buffers it as it would one of
      its own. */
  lemma ForwardedArrivesConverted<P>(worker: World<P>, master: World<P>, t: Transactions.Transaction, hooks: Transactions.Hooks)
    requires Reportable(t) && worker.client.active && worker.client.server.Some? && worker.config.Some?
    requires Active(master) && master.agent.value.pid == master.pid
    requires !IsIgnoredAction(master.config.value, t.action)
    ensures var sent := Complete(worker, t, hooks).state.forwarded;
            |sent| > 0 &&
            sent[|sent| - 1] == Transactions.Convert(t, worker.config.value, hooks) &&
            ServerEnqueue(master, sent[|sent| - 1]).agent.value.aggregator ==
              master.agent.value.aggregator + [Tx(Transactions.Convert(t, worker.config.value, hooks))]
  {
    var c := Transactions.Convert(t, worker.config.value, hooks);
    assert c.action == t.action;
  }

  // ---------------------------------------------------------------------------
  // IPC set-up

  /** `IPC::Server.start` in the master; the configuration supplies the
      project root. */
  function IpcServerStart<P>(w: World<P>, tmpExists: bool): (r: Step<World<P>>)
    ensures w.config.None? ==> r.Raised? && r.state == w
    ensures w.config.Some? ==>
              r.Done? && r.state.server.running &&
              r.state.server.uri == Some(Ipc.ServerUri(w.config.value.rootPath, w.pid, tmpExists))
    ensures r.state.(server := w.server) == w
  {
    match w.config
    case None => Raised(w, NoMethod("root_path"))
    case Some(c) => Done(w.(server := Ipc.ServerStart(w.server, c.rootPath, w.pid, tmpExists)))
  }

  /** `IPC.forked!`, in a new worker: the inherited server stops, the client
      starts against the server's last URI, and the agent's thread stops. With
      no agent the last step raises after the first two took effect. */
  function IpcForked<P>(w: World<P>): (r: Step<World<P>>)
    ensures !r.state.server.running && r.state.server.uri == w.server.uri
    ensures r.state.client.active && r.state.client.server == Some(Ipc.DrbRef(w.server.uri))
    ensures w.agent.None? <==> r.Raised?
    ensures w.agent.Some? ==> r.state.agent == Some(w.agent.value.(threadAlive := false))
    ensures r.state.(server := w.server, client := w.client, agent := w.agent) == w
  {
    var server := Ipc.ServerStop(w.server);
    var w1 := w.(server := server, client := Ipc.ClientStart(w.client, server));
    match w1.agent
    case None => Raised(w1, NoMethod("stop_thread"))
    case Some(a) => Done(w1.(agent := Some(a.(threadAlive := false))))
  }

  /** After a fork, a worker of a master that started its server completes
      reportable transactions by sending them to that master's socket. */
  lemma ForkedWorkerForwards<P>(w: World<P>, t: Transactions.Transaction, hooks: Transactions.Hooks)
    requires w.server.uri.Some? && w.config.Some? && w.agent.Some?
    requires Reportable(t)
    ensures var worker := IpcForked(w).state;
            worker.client.server == Some(Ipc.DrbRef(w.server.uri)) &&
            Complete(worker, t, hooks).Done? &&
            Complete(worker, t, hooks).state.forwarded == w.forwarded + [Transactions.Convert(t, w.config.value, hooks)]
  {
  }

  // ---------------------------------------------------------------------------
  // The notification subscriber

  predicate StartsWith(s: string, prefix: string) {
    |prefix| <= |s| && s[..|prefix|] == prefix
  }

  /** The subscriber block on the current transaction: a `process_action`
      event becomes its primary request event and a `perform_job` event its
      primary job event; then the event is added, pause permitting. */
  function Record(t: Transactions.Transaction, e: Events.Event): (r: Step<Transactions.Transaction>)
    ensures !StartsWith(e.name, "process_action") && !StartsWith(e.name, "perform_job") ==>
              r == Done(Transactions.AddEvent(t, e))
    ensures StartsWith(e.name, "process_action") ==>
              r.Done? && r.state.processActionEvent == Some(e) && r.state.kind == Transactions.HTTP_REQUEST
    ensures StartsWith(e.name, "perform_job") ==>
              r.state.processActionEvent == Some(e) && r.state.kind == Transactions.BACKGROUND_JOB
    ensures StartsWith(e.name, "perform_job") ==>
              var queueStart := Lookup(e.payload, Sym("queue_start"));
              (r.Done? <==> !Truthy(queueStart) || ToF(queueStart).Some?) &&
              (r.Raised? ==> r.error.className == "NoMethodError")
    ensures r.Done? ==> r.state.events == (if t.paused then t.events else t.events + [e])
    ensures r.state.requestId == t.requestId
  {
    if StartsWith(e.name, "process_action") then
      assert e.name[1] == 'r' != "perform_job"[1];
      Done(Transactions.AddEvent(Transactions.SetProcessActionEvent(t, Some(e)), e))
    else if StartsWith(e.name, "perform_job") then
      match Transactions.SetPerformJobEvent(t, Some(e))
      case Done(t1) => Done(Transactions.AddEvent(t1, e))
      case Raised(t1, err) => Raised(t1, err)
    else Done(Transactions.AddEvent(t, e))
  }

  /** Whether the subscriber's pattern `/^[^!]/` matches a name, as
      `Regexp#===` tests it: somewhere in the name a line begins with a
      character other than "!" (Ruby's `^` matches after every newline). */
  function Matches(name: string): (r: bool)
    ensures |name| > 0 && name[0] != '!' ==> r
    ensures r ==> |name| > 0
  {
    assert |name| > 0 ==> LineStart(name, 0);
    exists i :: 0 <= i < |name| && LineStart(name, i) && name[i] != '!'
  }

  /** Whether position `i` of a name begins a line. */
  predicate LineStart(name: string, i: nat)
    requires i <= |name|
  {
    i == 0 || name[i - 1] == '\n'
  }

  /** Whether the subscriber hears an event: the agent has subscribed and not
      unsubscribed since, and the name matches the pattern. */
  predicate Hears<P>(w: World<P>, e: Events.Event) {
    w.agent.Some? && w.agent.value.subscribed && Matches(e.name)
  }

  /** The notification subscriber: an event it hears reaches the current
      transaction, if there is one; every other event changes nothing. */
  function Notify<P>(w: World<P>, e: Events.Event): (r: Step<World<P>>)
    ensures !Hears(w, e) || Current(w).None? ==> r == Done(w)
    ensures Hears(w, e) && Current(w).Some? ==>
              Current(r.state) == Some(Record(Current(w).value, e).state) &&
              r.Raised? == Record(Current(w).value, e).Raised? &&
              (r.Raised? ==> r.error == Record(Current(w).value, e).error)
    ensures r.state.(transactions := w.transactions) == w
    ensures r.state.transactions.Keys == w.transactions.Keys
    ensures WellKeyed(w) ==> WellKeyed(r.state)
  {
    if !Hears(w, e) then Done(w)
    else match Current(w)
      case None => Done(w)
      case Some(t) =>
        var s := Record(t, e);
        var w1 := UpdateCurrent(w, _ => s.state);
        if s.Done? then Done(w1) else Raised(w1, s.error)
  }

  /** Single-line events whose names begin with "!" are never recorded. */
  lemma BangEventsUnheard<P>(w: World<P>, e: Events.Event)
    requires StartsWith(e.name, "!") && '\n' !in e.name
    ensures Notify(w, e) == Done(w)
  {
    assert e.name[0] == "!"[0];
    forall i | 0 <= i < |e.name| && e.name[i] != '!' ensures !LineStart(e.name, i) {
      assert e.name[i - 1] in e.name;
    }
  }

  /** The pattern looks at every line: "!a\nb" is heard because its second
      line starts with "b", while "!a" and the empty name are not. */
  lemma MultiLineBangHeard()
    ensures Matches("!a\nb")
    ensures !Matches("!a") && !Matches("")
  {
    var heard := "!a\nb";
    assert heard[2] == '\n' && heard[3] == 'b';
    var bang := "!a";
    assert bang[0] == '!' && bang[1] == 'a';
  }

  // ---------------------------------------------------------------------------
  // The public API

  /** `Haystack.add_exception`: records the exception on the current
      transaction unless inactive, without a current transaction, given nil,
      or the exception's class is ignored. */
  function AddException<P>(w: World<P>, error: Option<Thrown>, x: Env<P>): (r: World<P>)
    ensures !Active(w) || Current(w).None? || error.None? ==> r == w
    ensures Active(w) && error.Some? && IsIgnoredException(w.config.value, error.value) ==> r == w
    ensures Active(w) && Current(w).Some? && error.Some? && !IsIgnoredException(w.config.value, error.value) ==>
              Current(r) == Some(Transactions.AddException(Current(w).value, error, x.now, x.hooks)) &&
              Transactions.HasException(Current(r).value) &&
              Current(r).value.exception.value.exception == error.value.className
    ensures r.(transactions := w.transactions) == w
  {
    if !Active(w) || Current(w).None? || error.None? || IsIgnoredException(w.config.value, error.value) then w
    else UpdateCurrent(w, t => Transactions.AddException(t, error, x.now, x.hooks))
  }

  /** The result of `tag_request`: nil when inactive, false without a current
      transaction, otherwise the merged tags. */
  datatype TagResult = Inactive | NoTransaction | Tagged(tags: Payload)

  /** `Haystack.tag_request` (also `tag_job`). */
  function TagRequest<P>(w: World<P>, tags: Payload): (r: (World<P>, TagResult))
    ensures !Active(w) ==> r == (w, Inactive)
    ensures Active(w) && Current(w).None? ==> r == (w, NoTransaction)
    ensures Active(w) && Current(w).Some? ==>
              r.1.Tagged? && Current(r.0) == Some(Transactions.SetTags(Current(w).value, tags)) &&
              r.1.tags == Current(r.0).value.tags &&
              (forall k :: k in tags ==> k in r.1.tags && r.1.tags[k] == tags[k])
    ensures r.0.(transactions := w.transactions) == w
  {
    if !Active(w) then (w, Inactive)
    else match Current(w)
      case None => (w, NoTransaction)
      case Some(t) =>
        var w1 := UpdateCurrent(w, t => Transactions.SetTags(t, tags));
        (w1, Tagged(Transactions.SetTags(t, tags).tags))
  }

  /** The transaction `send_exception` builds: a fresh one without an
      environment, holding the exception and, when given, the tags. */
  function ExceptionTransaction(id: string, error: Thrown, tags: Option<Payload>, x: Transactions.Hooks, now: real): (t: Transactions.Transaction)
    ensures t.requestId == id && t.env.None? && t.events == [] && t.processActionEvent.None?
    ensures Transactions.HasException(t) && t.exception.value.exception == error.className
    ensures t.exception.value.message == error.message && t.time == Some(now)
    ensures t.tags == tags.GetOr(map[])
    ensures t.action == Nil && Reportable(t)
  {
    var t := Transactions.AddException(Transactions.New(id, None, Transactions.NO_DEFAULTS), Some(error), now, x);
    match tags
    case None => t
    case Some(given) => Transactions.SetTags(t, given)
  }

  /** `Haystack.send_exception`: nothing when inactive or the class is ignored;
      only a log line for an object that is not an exception. Otherwise a new
      transaction holding the exception and the tags is created, completed and
      the queue sent at once. */
  function SendException<P>(w: World<P>, error: Thrown, tags: Option<Payload>, id: string, x: Env<P>): (r: Step<World<P>>)
    ensures !Active(w) ==> r == Done(w)
    ensures Active(w) && IsIgnoredException(w.config.value, error) ==> r == Done(w)
    ensures !error.isException ==> r == Done(w)
    ensures Active(w) && !IsIgnoredException(w.config.value, error) && error.isException ==>
              r.state.currentId.None? && r.state.transactions == w.transactions - {id}
  {
    if !Active(w) || IsIgnoredException(w.config.value, error) || !error.isException then Done(w)
    else
      var w1 := Create(w, id, None);
      var t := ExceptionTransaction(id, error, tags, x.hooks, x.now);
      assert w1.transactions - {id} == w.transactions - {id};
      match Complete(w1, t, x.hooks)
      case Raised(w2, e) => Raised(w2, e)
      case Done(w2) =>
        match w2.agent
        case None => Raised(w2, NoMethod("send_queue"))
        case Some(a) => Done(w2.(agent := Some(Agent.SendQueue(a, x.pack, x.transmit))))
  }

  /** Without an IPC client, the new transaction is enqueued in this process
      and the agent's queue is sent straight away. */
  lemma SendExceptionSends<P>(w: World<P>, error: Thrown, tags: Option<Payload>, id: string, x: Env<P>)
    requires Active(w) && !IsIgnoredException(w.config.value, error) && error.isException && !w.client.active
    ensures var r := SendException(w, error, tags, id, x);
            var t := ExceptionTransaction(id, error, tags, x.hooks, x.now);
            var w2 := Enqueue(Create(w, id, None).(currentId := None, transactions := w.transactions - {id}), Tx(t));
            r == Done(w2.(agent := Some(Agent.SendQueue(w2.agent.value, x.pack, x.transmit))))
  {
    var t := ExceptionTransaction(id, error, tags, x.hooks, x.now);
    var w1 := Create(w, id, None);
    assert Complete(w1, t, x.hooks) == Done(Enqueue(w1.(currentId := None, transactions := w1.transactions - {id}), Tx(t)));
    assert w1.transactions - {id} == w.transactions - {id};
  }

  /** The exception reaches the agent's buffer: sent from a process whose
      agent is its own (no fork pending) and with nothing pending before, the
      batch handed to the packer is exactly the one new transaction, unless nil
      actions are ignored. */
  lemma SendExceptionBatch<P>(w: World<P>, error: Thrown, tags: Option<Payload>, id: string, x: Env<P>)
    requires Active(w) && !IsIgnoredException(w.config.value, error) && error.isException && !w.client.active
    requires w.agent.value.pid == w.pid && w.agent.value.aggregator == []
    requires !IsIgnoredAction(w.config.value, Nil)
    ensures var a := w.agent.value.(aggregator := [Tx(ExceptionTransaction(id, error, tags, x.hooks, x.now))]);
            SendException(w, error, tags, id, x) == Done(SendException(w, error, tags, id, x).state) &&
            SendException(w, error, tags, id, x).state.agent == Some(Agent.SendQueue(a, x.pack, x.transmit))
  {
  }

  /** `send_exception` takes over the thread's current id: called while a
      request's transaction is current, it leaves no current transaction, and
      the request's transaction stays in the registry where
      `complete_current!` can no longer find it. */
  lemma SendExceptionDetachesCurrent<P>(w: World<P>, error: Thrown, tags: Option<Payload>, id: string, x: Env<P>)
    requires Active(w) && !IsIgnoredException(w.config.value, error) && error.isException
    requires Current(w).Some? && w.currentId.value != id
    ensures var r := SendException(w, error, tags, id, x).state;
            Current(r).None? && w.currentId.value in r.transactions &&
            CompleteCurrent(r, x.hooks) == Done(r)
  {
  }

  /** `Haystack.without_instrumentation`: the current transaction, if any, is
      paused before the block and the then-current one resumed after it,
      whether the block returned or raised. */
  function WithoutInstrumentation<P>(w: World<P>, block: Block<P>): (r: Step<World<P>>)
    ensures var before := if Current(w).Some? then UpdateCurrent(w, Transactions.Pause) else w;
            var after := block(before).state;
            r.state == (if Current(after).Some? then UpdateCurrent(after, Transactions.Resume) else after) &&
            r.Raised? == block(before).Raised? &&
            (r.Raised? ==> r.error == block(before).error)
    ensures Current(r.state).Some? ==> !Current(r.state).value.paused
  {
    var before := if Current(w).Some? then UpdateCurrent(w, Transactions.Pause) else w;
    var s := block(before);
    var after := if Current(s.state).Some? then UpdateCurrent(s.state, Transactions.Resume) else s.state;
    match s
    case Done(_) => Done(after)
    case Raised(_, e) => Raised(after, e)
  }

  /** Adds the events through the subscriber, one after the other. */
  function NotifyAll<P>(w: World<P>, es: seq<Events.Event>): (r: World<P>)
    ensures r.(transactions := w.transactions) == w
    decreases |es|
  {
    if |es| == 0 then w else NotifyAll(Notify(w, es[0]).state, es[1..])
  }

  predicate PlainEvents(es: seq<Events.Event>) {
    forall i :: 0 <= i < |es| ==> !StartsWith(es[i].name, "process_action") && !StartsWith(es[i].name, "perform_job")
  }

  /** Events other than primary ones reach a paused current transaction and
      change nothing. */
  lemma {:induction false} PausedCurrentIgnoresNotifications<P>(w: World<P>, es: seq<Events.Event>)
    requires Current(w).Some? && Current(w).value.paused
    requires PlainEvents(es)
    ensures NotifyAll(w, es) == w
    decreases |es|
  {
    if |es| > 0 {
      if Hears(w, es[0]) {
        var t := Current(w).value;
        assert Record(t, es[0]) == Done(t);
        assert w.transactions[w.currentId.value := t] == w.transactions;
      }
      assert Notify(w, es[0]) == Done(w);
      PausedCurrentIgnoresNotifications(w, es[1..]);
    }
  }

  /** After `unsubscribe` (as every shutdown does) or without an agent, no
      event is recorded at all. */
  lemma {:induction false} UnsubscribedRecordsNothing<P>(w: World<P>, es: seq<Events.Event>)
    requires w.agent.Some? ==> !w.agent.value.subscribed
    ensures NotifyAll(w, es) == w
    decreases |es|
  {
    if |es| > 0 {
      assert Notify(w, es[0]) == Done(w);
      UnsubscribedRecordsNothing(w, es[1..]);
    }
  }

  /** A shut-down agent records nothing of what is published afterwards. */
  lemma ShutdownRecordsNothing<P>(w: World<P>, flush: bool, es: seq<Events.Event>, x: Env<P>)
    requires w.agent.Some?
    ensures var down := w.(agent := Some(Agent.Shutdown(w.agent.value, flush, x.pack, x.transmit)));
            NotifyAll(down, es) == down
  {
    UnsubscribedRecordsNothing(w.(agent := Some(Agent.Shutdown(w.agent.value, flush, x.pack, x.transmit))), es);
  }

  /** Instrumentation inside `without_instrumentation` is not recorded: when
      the block only delivers plain events, the current transaction comes out
      with its events as they were, and unpaused. */
  lemma WithoutInstrumentationRecordsNothing<P>(w: World<P>, es: seq<Events.Event>)
    requires Current(w).Some? && PlainEvents(es)
    ensures var r := WithoutInstrumentation(w, v => Done(NotifyAll(v, es)));
            r.Done? && Current(r.state).Some? &&
            Current(r.state).value.events == Current(w).value.events &&
            !Current(r.state).value.paused
  {
    var before := UpdateCurrent(w, Transactions.Pause);
    PausedCurrentIgnoresNotifications(before, es);
  }

  /** What `ActiveSupport::Notifications.instrument` adds to the name and
      payload when it builds the event it publishes: the block's start and
      finish, the instrumenter's id, and the payload rewriting of a moped
      event. */
  datatype Span = Span(started: real, finished: real, instrumenterId: string, mopedPayload: Payload -> Payload)

  /** The event `instrument(name, payload)` publishes. */
  function InstrumentEvent(name: string, payload: Payload, span: Span): Events.Event {
    Events.ForInstrumentation(name, span.started, span.finished, span.instrumenterId, payload, span.mopedPayload)
  }

  /** `instrument(name, payload) { ... }` around a block that ended in `s`: the
      event is published after the block, whether it returned or raised; an
      exception raised by the subscriber replaces the block's. An event nobody
      hears leaves the outcome as it was. */
  function Instrument<P>(s: Step<World<P>>, e: Events.Event): (r: Step<World<P>>)
    ensures r.state == Notify(s.state, e).state
    ensures Notify(s.state, e).Raised? ==> r == Notify(s.state, e)
    ensures Notify(s.state, e).Done? ==> r.Raised? == s.Raised? && (s.Raised? ==> r.error == s.error)
    ensures !Hears(s.state, e) ==> r == s
  {
    var n := Notify(s.state, e);
    if n.Raised? then n
    else match s
      case Done(_) => Done(n.state)
      case Raised(_, err) => Raised(n.state, err)
  }

  /** The part of `monitor_transaction` inside `begin`: the transaction is
      created and the block runs instrumented. */
  function Monitored<P>(w: World<P>, name: string, payload: Payload, id: string, env: Transactions.Env,
                        run: Block<P>, span: Span): Step<World<P>> {
    Instrument(run(Create(w, id, Some(env))), InstrumentEvent(name, payload, span))
  }

  /** The `rescue` and `ensure` clauses of `monitor_transaction`, after the
      instrumented block ended in `s`: an exception is added to the current
      transaction and raised again, and in every case the current transaction
      is completed; an exception from completing replaces the earlier one. */
  function Conclude<P>(s: Step<World<P>>, x: Env<P>): (r: Step<World<P>>)
    ensures var w2 := if s.Raised? then AddException(s.state, Some(s.error), x) else s.state;
            var c := CompleteCurrent(w2, x.hooks);
            r.state == c.state &&
            (c.Raised? ==> r == c) &&
            (c.Done? ==> r.Raised? == s.Raised? && (s.Raised? ==> r.error == s.error))
  {
    match s
    case Done(w2) => CompleteCurrent(w2, x.hooks)
    case Raised(w2, e) =>
      var c := CompleteCurrent(AddException(w2, Some(e), x), x.hooks);
      if c.Raised? then c else Raised(c.state, e)
  }

  /** `Haystack.monitor_transaction(name, payload) { ... }`. When inactive the
      block runs and nothing else happens. When active a transaction is created
      and made current and the block runs under `instrument`; an exception from
      either is added to the current transaction and raised again, and in every
      case the current transaction is completed; an exception from completing
      replaces the earlier one. */
  function MonitorTransaction<P>(w: World<P>, name: string, payload: Payload, id: string, env: Transactions.Env,
                                 run: Block<P>, span: Span, x: Env<P>): (r: Step<World<P>>)
    ensures !Active(w) ==> r == run(w)
    ensures Active(w) ==> r == Conclude(Monitored(w, name, payload, id, env, run, span), x)
    ensures Active(w) ==>
              var s := Monitored(w, name, payload, id, env, run, span);
              var w2 := if s.Raised? then AddException(s.state, Some(s.error), x) else s.state;
              var c := CompleteCurrent(w2, x.hooks);
              r.state == c.state &&
              (c.Raised? ==> r == c) &&
              (c.Done? ==> r.Raised? == s.Raised? && (s.Raised? ==> r.error == s.error))
  {
    if !Active(w) then run(w)
    else Conclude(Monitored(w, name, payload, id, env, run, span), x)
  }

  /** The block left transaction `id` current and registered under its own
      id, the API active and no IPC client running. */
  predicate KeptCurrent<P>(b: World<P>, id: string) {
    b.currentId == Some(id) && id in b.transactions && WellKeyed(b) && Active(b) && !b.client.active
  }

  /** Publishing the instrument event keeps what `KeptCurrent` says. */
  lemma InstrumentKeepsCurrent<P>(s: Step<World<P>>, e: Events.Event, id: string)
    requires KeptCurrent(s.state, id)
    ensures KeptCurrent(Instrument(s, e).state, id)
  {
  }

  /** Concluding a block that kept its transaction current completes and
      unregisters it, and raises exactly when the block did. */
  lemma ConcludeCompletes<P>(s: Step<World<P>>, id: string, x: Env<P>)
    requires KeptCurrent(s.state, id)
    ensures var r := Conclude(s, x);
            r.state.currentId.None? && id !in r.state.transactions && r.Raised? == s.Raised?
  {
    var done := if s.Raised? then AddException(s.state, Some(s.error), x) else s.state;
    assert Current(done).Some? && Current(done).value.requestId == id;
    assert done.transactions.Keys == s.state.transactions.Keys;
  }

  /** Concluding a block that raised an exception that is not ignored buffers
      the transaction carrying it and raises the same exception. */
  lemma ConcludeReports<P>(s: Step<World<P>>, id: string, x: Env<P>)
    requires KeptCurrent(s.state, id)
    requires s.Raised? && !IsIgnoredException(s.state.config.value, s.error)
    ensures var r := Conclude(s, x);
            var done := AddException(s.state, Some(s.error), x);
            Current(done).Some? &&
            Transactions.HasException(Current(done).value) &&
            Current(done).value.exception.value.exception == s.error.className &&
            r.Raised? && r.error == s.error &&
            r.state == Enqueue(s.state.(currentId := None, transactions := s.state.transactions - {id}), Tx(Current(done).value))
  {
    var done := AddException(s.state, Some(s.error), x);
    assert Current(done).Some? && Current(done).value.requestId == id;
  }

  /** A block that keeps its transaction current: the transaction is always
      completed and unregistered, and the call raises exactly when the block or
      the subscriber did. */
  lemma MonitorCompletes<P>(w: World<P>, name: string, payload: Payload, id: string, env: Transactions.Env,
                            run: Block<P>, span: Span, x: Env<P>)
    requires Active(w) && KeptCurrent(run(Create(w, id, Some(env))).state, id)
    ensures var r := MonitorTransaction(w, name, payload, id, env, run, span, x);
            r.state.currentId.None? && id !in r.state.transactions &&
            r.Raised? == Monitored(w, name, payload, id, env, run, span).Raised?
  {
    InstrumentKeepsCurrent(run(Create(w, id, Some(env))), InstrumentEvent(name, payload, span), id);
    ConcludeCompletes(Monitored(w, name, payload, id, env, run, span), id, x);
  }

  /** When the block or the subscriber raised an exception that is not
      ignored, the transaction the agent buffers carries it, and the same
      exception comes out. */
  lemma MonitorReports<P>(w: World<P>, name: string, payload: Payload, id: string, env: Transactions.Env,
                          run: Block<P>, span: Span, x: Env<P>)
    requires Active(w) && KeptCurrent(run(Create(w, id, Some(env))).state, id)
    requires var s := Monitored(w, name, payload, id, env, run, span);
             s.Raised? && s.state.config.Some? && !IsIgnoredException(s.state.config.value, s.error)
    ensures var s := Monitored(w, name, payload, id, env, run, span);
            var r := MonitorTransaction(w, name, payload, id, env, run, span, x);
            var done := AddException(s.state, Some(s.error), x);
            Current(done).Some? &&
            Transactions.HasException(Current(done).value) &&
            Current(done).value.exception.value.exception == s.error.className &&
            r.Raised? && r.error == s.error &&
            r.state == Enqueue(s.state.(currentId := None, transactions := s.state.transactions - {id}), Tx(Current(done).value))
  {
    InstrumentKeepsCurrent(run(Create(w, id, Some(env))), InstrumentEvent(name, payload, span), id);
    ConcludeReports(Monitored(w, name, payload, id, env, run, span), id, x);
  }

  /** `monitor_transaction("perform_job...", payload)`, as the job integrations
      call it: when the block returns and keeps its transaction current, the
      instrument event becomes the transaction's primary job event, and the
      agent buffers the transaction as a background job under "class#method". */
  lemma MonitorRecordsJob<P>(w: World<P>, name: string, payload: Payload, id: string, env: Transactions.Env,
                             run: Block<P>, span: Span, x: Env<P>)
    requires Active(w) && StartsWith(name, "perform_job")
    requires var b := run(Create(w, id, Some(env)));
             b.Done? && KeptCurrent(b.state, id) && b.state.agent.Some? && b.state.agent.value.subscribed
    requires var queueStart := Lookup(payload, Sym("queue_start"));
             !Truthy(queueStart) || ToF(queueStart).Some?
    requires var b := run(Create(w, id, Some(env))).state;
             b.config.Some? &&
             !IsIgnoredAction(b.config.value, Str(ToS(Lookup(payload, Sym("class"))) + "#" + ToS(Lookup(payload, Sym("method")))))
    ensures var r := MonitorTransaction(w, name, payload, id, env, run, span, x);
            r.Done? && r.state.agent.Some? &&
            var a := r.state.agent.value.aggregator;
            |a| > 0 && a[|a| - 1].Tx? &&
            a[|a| - 1].t.processActionEvent == Some(InstrumentEvent(name, payload, span)) &&
            a[|a| - 1].t.kind == Transactions.BACKGROUND_JOB
  {
    var b := run(Create(w, id, Some(env)));
    var e := InstrumentEvent(name, payload, span);
    assert name[0] == 'p' != "query.moped"[0];
    InstrumentKeepsCurrent(b, e, id);
    InstrumentRecordsJob(b, e, id);
    ConcludeBuffers(Monitored(w, name, payload, id, env, run, span), id, x);
  }

  /** A `perform_job` event published over a block that returned, while the
      agent listens, makes the current transaction a background job with that
      event as its primary one. */
  lemma InstrumentRecordsJob<P>(b: Step<World<P>>, e: Events.Event, id: string)
    requires b.Done? && KeptCurrent(b.state, id) && b.state.agent.value.subscribed
    requires StartsWith(e.name, "perform_job")
    requires var queueStart := Lookup(e.payload, Sym("queue_start"));
             !Truthy(queueStart) || ToF(queueStart).Some?
    ensures var s := Instrument(b, e);
            s.Done? && id in s.state.transactions &&
            s.state.transactions[id].processActionEvent == Some(e) &&
            s.state.transactions[id].kind == Transactions.BACKGROUND_JOB &&
            s.state.transactions[id].action ==
              Str(ToS(Lookup(e.payload, Sym("class"))) + "#" + ToS(Lookup(e.payload, Sym("method"))))
  {
    assert e.name[0] == "perform_job"[0];
    assert Hears(b.state, e);
    var rec := Record(Current(b.state).value, e);
    assert rec.Done?;
    assert Current(Notify(b.state, e).state) == Some(rec.state);
  }

  /** Concluding a block that returned with a reportable transaction whose
      action is not ignored buffers that transaction last. */
  lemma ConcludeBuffers<P>(s: Step<World<P>>, id: string, x: Env<P>)
    requires KeptCurrent(s.state, id) && s.Done?
    requires Reportable(s.state.transactions[id]) &&
             !IsIgnoredAction(s.state.config.value, s.state.transactions[id].action)
    ensures var r := Conclude(s, x);
            r.Done? && r.state.agent.Some? &&
            var a := r.state.agent.value.aggregator;
            |a| > 0 && a[|a| - 1] == Tx(s.state.transactions[id])
  {
  }
}

=== FILE: ipc.dfy ===
/**
 * Inter-process hand-off for forking servers. The master process runs a
 * DRb server on a Unix socket named after its pid; a forked worker stops the
 * inherited server, starts a client pointing at the master's socket and lets
 * its transactions travel to the master instead of buffering them itself.
 * Here the server and the client are plain records; the socket and DRb's
 * marshalling are left out.
 */
module Ipc {
  import opened Values

  /** A `DRbObject` proxy: only the URI it was built with. */
  datatype DrbRef = DrbRef(uri: Option<string>)

  /** `IPC::Server`'s class-level state: the URI it last listened on and
      whether the DRb service runs. */
  datatype Server = Server(uri: Option<string>, running: bool)

  /** `IPC::Client`'s class-level state. */
  datatype Client = Client(active: bool, server: Option<DrbRef>)

  const SERVER_IDLE: Server := Server(None, false)
  const CLIENT_IDLE: Client := Client(false, None)

  const SCHEME: string := "drbunix:"
  const SOCKET_PREFIX: string := "haystack-"

  /** `File.join(dir, name)` for a relative `name`: exactly one separator
      between the two. */
  function JoinPath(dir: string, name: string): (r: string)
    ensures |dir| == 0 || dir[|dir| - 1] != '/' ==> r == dir + "/" + name
  {
    if |dir| > 0 && dir[|dir| - 1] == '/' then dir + name else dir + "/" + name
  }

  /** The directory the socket goes into: the project's `tmp` when it
      exists, otherwise the system's `/tmp`. */
  function SocketDir(root: string, tmpExists: bool): string {
    if tmpExists then JoinPath(root, "tmp") else "/tmp"
  }

  /** The URI `Server.start` listens on, for process `pid`. */
  function ServerUri(root: string, pid: nat, tmpExists: bool): (uri: string)
    ensures uri == SCHEME + SocketDir(root, tmpExists) + "/" + SOCKET_PREFIX + NatToDecimal(pid)
  {
    var dir := SocketDir(root, tmpExists);
    assert dir[|dir| - 1] == 'p';
    SCHEME + JoinPath(dir, SOCKET_PREFIX + NatToDecimal(pid))
  }

  /** Two processes never share a socket: the URI determines the pid. */
  lemma ServerUriInjective(root: string, tmpExists: bool, p: nat, q: nat)
    requires ServerUri(root, p, tmpExists) == ServerUri(root, q, tmpExists)
    ensures p == q
  {
    var head := SCHEME + SocketDir(root, tmpExists) + "/" + SOCKET_PREFIX;
    var u := ServerUri(root, p, tmpExists);
    assert u == head + NatToDecimal(p);
    assert u == head + NatToDecimal(q);
    assert NatToDecimal(p) == u[|head|..] == NatToDecimal(q);
    DecimalInjective(p, q);
  }

  /** Without a project tmp directory the socket goes to the system's. */
  lemma ServerUriSystemTmp(root: string, pid: nat)
    ensures ServerUri(root, pid, false) == "drbunix:/tmp/haystack-" + NatToDecimal(pid)
  {
    assert SCHEME + "/tmp" + "/" + SOCKET_PREFIX == "drbunix:/tmp/haystack-";
  }

  /** With a project tmp directory the socket goes into `<root>/tmp`, with
      exactly one separator after the root whether or not it ends in one. */
  lemma ServerUriProjectTmp(root: string, pid: nat)
    ensures |root| == 0 || root[|root| - 1] != '/' ==>
              ServerUri(root, pid, true) == "drbunix:" + root + "/tmp/haystack-" + NatToDecimal(pid)
    ensures |root| > 0 && root[|root| - 1] == '/' ==>
              ServerUri(root, pid, true) == "drbunix:" + root + "tmp/haystack-" + NatToDecimal(pid)
  {
    if |root| == 0 || root[|root| - 1] != '/' {
      assert "/" + "tmp" == "/tmp";
      Reassociate("", root, "/", "tmp", "");
      ProjectTmpUnder(root, "/tmp", pid);
      assert "/tmp" + "/haystack-" == "/tmp/haystack-";
    } else {
      ProjectTmpUnder(root, "tmp", pid);
      assert "tmp" + "/haystack-" == "tmp/haystack-";
    }
  }

  /** The URI for a socket directory spelt `root + sub`. */
  lemma ProjectTmpUnder(root: string, sub: string, pid: nat)
    requires SocketDir(root, true) == root + sub
    ensures ServerUri(root, pid, true) == "drbunix:" + root + (sub + "/haystack-") + NatToDecimal(pid)
  {
    Reassociate(SCHEME, root, sub, "/" + SOCKET_PREFIX, NatToDecimal(pid));
  }

  /** Regrouping a five-part concatenation around its middle pair. */
  lemma Reassociate(a: string, b: string, c: string, e: string, f: string)
    ensures a + (b + c) + e + f == a + b + (c + e) + f
  {
  }

  /** `Server.start`. */
  function ServerStart(s: Server, root: string, pid: nat, tmpExists: bool): (r: Server)
    ensures r.running && r.uri == Some(ServerUri(root, pid, tmpExists))
  {
    Server(Some(ServerUri(root, pid, tmpExists)), true)
  }

  /** `Server.stop`: the service stops, the URI reader keeps its last value. */
  function ServerStop(s: Server): (r: Server)
    ensures !r.running && r.uri == s.uri
  {
    s.(running := false)
  }

  /** `Client.start`: a proxy for whatever URI the server last had, which in a
      forked worker is the master's. */
  function ClientStart(c: Client, server: Server): (r: Client)
    ensures r.active && r.server == Some(DrbRef(server.uri))
  {
    Client(true, Some(DrbRef(server.uri)))
  }

  /** `Client.stop`. */
  function ClientStop(c: Client): (r: Client)
    ensures r == CLIENT_IDLE
  {
    Client(false, None)
  }

  /** An active client always has a proxy to send through. */
  predicate ClientValid(c: Client) {
    c.active ==> c.server.Some?
  }

  /** Start and stop both leave the client valid, from any state. */
  lemma ClientTransitionsValid(c: Client, server: Server)
    ensures ClientValid(ClientStart(c, server)) && ClientValid(ClientStop(c))
    ensures ClientStop(ClientStart(c, server)) == CLIENT_IDLE
    ensures ClientValid(CLIENT_IDLE)
  {
  }

  /** A worker forked from a master that started its server talks to exactly
      that server's socket. */
  lemma ForkedClientTargetsMaster(c: Client, root: string, masterPid: nat, tmpExists: bool)
    ensures var master := ServerStart(SERVER_IDLE, root, masterPid, tmpExists);
            ClientStart(c, ServerStop(master)).server == Some(DrbRef(Some(ServerUri(root, masterPid, tmpExists))))
  {
  }
}

=== FILE: js_exception_transaction.dfy ===
/**
 * A frontend error report: the JSON body a browser posts, wrapped so that it
 * travels through the aggregator like a transaction. It has no events and no
 * context to sanitize, and always counts as an exception.
 */
module JsExceptions {
  import opened Values
  import Events
  import Transactions

  /** The posted data, by key, and the second at which it was received. */
  datatype JsExceptionTransaction = JsExceptionTransaction(data: map<string, Value>, time: int)

  /** `data[key]`, nil when absent. */
  function Get(j: JsExceptionTransaction, key: string): (v: Value)
    ensures key in j.data ==> v == j.data[key]
    ensures key !in j.data ==> v.Nil?
  {
    if key in j.data then j.data[key] else Nil
  }

  function Type(j: JsExceptionTransaction): (r: Transactions.TransactionType)
    ensures r == Transactions.ExceptionType
  {
    Transactions.ExceptionType
  }

  function Action(j: JsExceptionTransaction): (a: Value)
    ensures a == Get(j, "action")
  {
    Get(j, "action")
  }

  function EventsOf(j: JsExceptionTransaction): (es: seq<Events.Event>)
    ensures es == []
  {
    []
  }

  /** `clear_events!`, and equally `convert_values_to_primitives!`: both are
      empty, so a frontend report is left exactly as it is. */
  function ClearEvents(j: JsExceptionTransaction): (r: JsExceptionTransaction)
    ensures r == j
  {
    j
  }

  datatype LogEntry = LogEntry(action: Value, path: Value, kind: string, time: int,
                               environment: Value, tags: Value, revision: Option<string>)

  datatype ExceptionEntry = ExceptionEntry(exception: Value, message: Value, backtrace: Value)

  /** The wire record `to_hash` builds. */
  datatype FrontendRecord = FrontendRecord(requestId: string, logEntry: LogEntry, exception: ExceptionEntry, failed: bool)

  /** `to_hash`, given the fresh uuid and the agent's revision it reads: a
      failed frontend record whose exception part is the posted name, message
      and backtrace, untouched. */
  function ToHash(j: JsExceptionTransaction, uuid: string, revision: Option<string>): (r: FrontendRecord)
    ensures r.failed && r.logEntry.kind == "frontend"
    ensures r.requestId == uuid && r.logEntry.revision == revision && r.logEntry.time == j.time
    ensures r.exception == ExceptionEntry(Get(j, "name"), Get(j, "message"), Get(j, "backtrace"))
    ensures r.logEntry.action == Action(j) && r.logEntry.path == Get(j, "path")
    ensures r.logEntry.environment == Get(j, "environment") && r.logEntry.tags == Get(j, "tags")
  {
    FrontendRecord(
      uuid,
      LogEntry(Action(j), Get(j, "path"), "frontend", j.time, Get(j, "environment"), Get(j, "tags"), revision),
      ExceptionEntry(Get(j, "name"), Get(j, "message"), Get(j, "backtrace")),
      true)
  }
}

=== FILE: post_processor.dfy ===
/**
 * Post-processing: before a detached batch is serialized, every event of every
 * buffered transaction runs through the middleware chain, then each
 * transaction is turned into its wire hash. The chain is composed once, from
 * which host libraries are loaded.
 */
module PostProcessing {
  import opened Values
  import Events
  import opened Aggregator

  datatype Middleware = DeleteBlanks | ActionViewSanitizer | ActiveRecordSanitizer

  /** The payload rewrites of the two framework sanitizers, whose classes are
      collaborators outside this model. */
  datatype Sanitizers = Sanitizers(actionView: Payload -> Payload, activeRecord: Payload -> Payload)

  /** `default_middleware`: blank deletion always, first; the ActionView and
      ActiveRecord sanitizers exactly when those libraries are loaded, once each. */
  function DefaultMiddleware(actionViewLoaded: bool, activeRecordLoaded: bool): (chain: seq<Middleware>)
    ensures |chain| >= 1 && chain[0] == DeleteBlanks
    ensures ActionViewSanitizer in chain <==> actionViewLoaded
    ensures ActiveRecordSanitizer in chain <==> activeRecordLoaded
    ensures |chain| == 1 + (if actionViewLoaded then 1 else 0) + (if activeRecordLoaded then 1 else 0)
    ensures DeleteBlanks !in chain[1..]
  {
    [DeleteBlanks]
    + (if actionViewLoaded then [ActionViewSanitizer] else [])
    + (if activeRecordLoaded then [ActiveRecordSanitizer] else [])
  }

  /** Blank deletion: the nil-valued entries leave, every other entry stays. */
  function DropNils(p: Payload): (r: Payload)
    ensures forall k :: k in r <==> k in p && !p[k].Nil?
    ensures forall k :: k in r ==> r[k] == p[k]
  {
    map k | k in p && !p[k].Nil? :: p[k]
  }

  function ApplyStep(m: Middleware, e: Events.Event, s: Sanitizers): Events.Event {
    match m
    case DeleteBlanks => e.(payload := DropNils(e.payload))
    case ActionViewSanitizer => e.(payload := s.actionView(e.payload))
    case ActiveRecordSanitizer => e.(payload := s.activeRecord(e.payload))
  }

  /** `invoke`: the steps in chain order. Only the payload can change; name,
      class, timing and id are the event's own. */
  function Invoke(chain: seq<Middleware>, e: Events.Event, s: Sanitizers): (r: Events.Event)
    ensures r.cls == e.cls && r.name == e.name && r.time == e.time
    ensures r.ending == e.ending && r.transactionId == e.transactionId
    decreases |chain|
  {
    if |chain| == 0 then e else Invoke(chain[1..], ApplyStep(chain[0], e, s), s)
  }

  /** A transaction as it stands after the chain has seen each of its events once. */
  function RunChain(q: Queued, chain: seq<Middleware>, s: Sanitizers): (r: Queued)
    ensures |EventsOf(r)| == |EventsOf(q)|
    ensures forall i :: 0 <= i < |EventsOf(q)| ==> EventsOf(r)[i] == Invoke(chain, EventsOf(q)[i], s)
    ensures r.Tx? <==> q.Tx?
    ensures q.Tx? ==> r.t.(events := q.t.events) == q.t
    ensures q.Js? ==> r == q
  {
    match q
    case Tx(t) => Tx(t.(events := seq(|t.events|, i requires 0 <= i < |t.events| => Invoke(chain, t.events[i], s))))
    case Js(_) => q
  }

  /** The events of a batch, transaction after transaction, each in order. */
  function AllEvents(qs: seq<Queued>): seq<Events.Event> {
    if |qs| == 0 then [] else AllEvents(qs[..|qs| - 1]) + EventsOf(qs[|qs| - 1])
  }

  /** Extending a batch by one transaction extends its events by that
      transaction's events. */
  lemma AllEventsSnoc(qs: seq<Queued>, n: nat)
    requires n < |qs|
    ensures AllEvents(qs[..n + 1]) == AllEvents(qs[..n]) + EventsOf(qs[n])
  {
    assert qs[..n + 1][..n] == qs[..n];
  }

  /** The chain run over one transaction's events, one call per event in
      order; `invoked` lists the events handed to the chain. */
  method ProcessEvents(q: Queued, chain: seq<Middleware>, s: Sanitizers)
    returns (done: Queued, invoked: seq<Events.Event>)
    ensures done == RunChain(q, chain, s)
    ensures invoked == EventsOf(q)
  {
    var events := EventsOf(q);
    var processed: seq<Events.Event> := [];
    invoked := [];
    var k := 0;
    while k < |events|
      invariant k <= |events|
      invariant |processed| == k
      invariant forall i :: 0 <= i < k ==> processed[i] == Invoke(chain, events[i], s)
      invariant invoked == events[..k]
    {
      processed := processed + [Invoke(chain, events[k], s)];
      invoked := invoked + [events[k]];
      k := k + 1;
    }
    assert events[..k] == events;
    done := match q
            case Tx(t) => Tx(t.(events := processed))
            case Js(_) => q;
  }

  /** `post_processed_queue!`: one hash per transaction, in order, each computed
      after the chain has run over that transaction's events. `invoked` lists
      the events handed to the chain: every event of every transaction, exactly
      once, in order. */
  method PostProcessedQueue<R>(transactions: seq<Queued>, chain: seq<Middleware>, s: Sanitizers, toHash: Queued -> R)
    returns (records: seq<R>, invoked: seq<Events.Event>)
    ensures |records| == |transactions|
    ensures forall i :: 0 <= i < |transactions| ==> records[i] == toHash(RunChain(transactions[i], chain, s))
    ensures invoked == AllEvents(transactions)
  {
    records := [];
    invoked := [];
    var n := 0;
    while n < |transactions|
      invariant n <= |transactions|
      invariant |records| == n
      invariant forall i :: 0 <= i < n ==> records[i] == toHash(RunChain(transactions[i], chain, s))
      invariant invoked == AllEvents(transactions[..n])
    {
      var done, seen := ProcessEvents(transactions[n], chain, s);
      records := records + [toHash(done)];
      AllEventsSnoc(transactions, n);
      invoked := invoked + seen;
      n := n + 1;
    }
    assert transactions[..n] == transactions;
  }

  /** With neither framework loaded, post-processing leaves exactly the
      non-nil payload entries of each event. */
  lemma DefaultChainDropsNils(e: Events.Event, s: Sanitizers)
    ensures var r := Invoke(DefaultMiddleware(false, false), e, s);
            (forall k :: k in r.payload ==> !r.payload[k].Nil?) &&
            (forall k :: k in e.payload && !e.payload[k].Nil? ==> k in r.payload && r.payload[k] == e.payload[k])
  {
    var chain := DefaultMiddleware(false, false);
    assert chain == [DeleteBlanks];
    assert Invoke(chain, e, s) == Invoke([], ApplyStep(DeleteBlanks, e, s), s);
  }

  /** Blank deletion is idempotent, so a batch post-processed again on retry
      loses nothing more. */
  lemma DropNilsIdempotent(p: Payload)
    ensures DropNils(DropNils(p)) == DropNils(p)
  {
  }
}

=== FILE: transaction.dfy ===
/**
 * A transaction: the record of one unit of host work (a web request or a
 * background job) with its events, primary event, exception, tags and the
 * context snapshot taken before it leaves the process. Every operation here is
 * a pure update of the record; the live registry and the thread's current
 * transaction are part of the world state in module Haystack.
 */
module Transactions {
  import opened Values
  import opened Configuration
  import Events

  /** A Rack environment: header and server variables by name. */
  type Env = map<string, string>

  /** The environment variables copied into the sanitized environment. */
  const ENV_METHODS: seq<string> := [
    "CONTENT_LENGTH", "AUTH_TYPE", "GATEWAY_INTERFACE",
    "PATH_TRANSLATED", "REMOTE_HOST", "REMOTE_IDENT", "REMOTE_USER", "REMOTE_ADDR",
    "REQUEST_METHOD", "SERVER_NAME", "SERVER_PORT", "SERVER_PROTOCOL", "REQUEST_URI", "PATH_INFO",
    "HTTP_X_REQUEST_START", "HTTP_X_MIDDLEWARE_START", "HTTP_X_QUEUE_START",
    "HTTP_X_QUEUE_TIME", "HTTP_X_HEROKU_QUEUE_WAIT_TIME", "HTTP_X_APPLICATION_START",
    "HTTP_ACCEPT", "HTTP_ACCEPT_CHARSET", "HTTP_ACCEPT_ENCODING", "HTTP_ACCEPT_LANGUAGE",
    "HTTP_CACHE_CONTROL", "HTTP_CONNECTION", "HTTP_USER_AGENT", "HTTP_FROM", "HTTP_NEGOTIATE",
    "HTTP_PRAGMA", "HTTP_REFERER", "HTTP_X_FORWARDED_FOR", "HTTP_CLIENT_IP"]

  /** Seconds since the epoch at the start of the year 2000 (as the source
      writes it): a queue start at or before it is taken to be in the wrong unit. */
  const YEAR_2000: int := 946681200

  /** The limit on tag key and value lengths. */
  const TAG_LIMIT: nat := 100

  const HTTP_REQUEST: string := "http_request"
  const BACKGROUND_JOB: string := "background_job"

  /** The exception hash: `{exception: class name, message:, backtrace:}`. */
  datatype ExceptionRecord = ExceptionRecord(exception: string, message: string, backtrace: seq<string>)

  /** The `defaults` hash given to `create`. */
  datatype Defaults = Defaults(params: Option<Payload>, tags: Option<Payload>, kind: Option<string>, action: Value)

  const NO_DEFAULTS: Defaults := Defaults(None, None, None, Nil)

  datatype Transaction = Transaction(
    requestId: string,
    events: seq<Events.Event>,
    /** The primary event: the request's `process_action` or the job's `perform_job`. */
    processActionEvent: Option<Events.Event>,
    action: Value,
    /** `None` is the empty exception hash. */
    exception: Option<ExceptionRecord>,
    env: Option<Env>,
    params: Payload,
    tags: Payload,
    kind: string,
    queueStart: Option<real>,
    paused: bool,
    time: Option<real>,
    fullpath: Option<string>,
    /** The snapshots taken by `convert_values_to_primitives!`. */
    sanitizedEnvironment: map<string, Option<string>>,
    sanitizedSessionData: Payload,
    sanitizedParams: Payload,
    truncated: bool,
    converted: bool)

  /** Collaborators the transaction calls but that are not part of this model:
      the params sanitizer, the session and full path Rack derives from an
      environment, and the Rails backtrace cleaner when Rails is loaded. */
  datatype Hooks = Hooks(
    sanitize: Payload -> Payload,
    session: Env -> Payload,
    fullpath: Env -> string,
    backtraceCleaner: Option<seq<string> -> seq<string>>)

  /** `initialize`: a fresh transaction for `id` over `env`. */
  function New(id: string, env: Option<Env>, defaults: Defaults): (t: Transaction)
    ensures t.requestId == id && t.env == env
    ensures t.events == [] && t.processActionEvent.None? && t.exception.None?
    ensures !t.paused && !t.truncated && !t.converted && t.queueStart.None?
    ensures t.params == defaults.params.GetOr(map[]) && t.tags == defaults.tags.GetOr(map[])
    ensures t.kind == defaults.kind.GetOr(HTTP_REQUEST) && t.action == defaults.action
  {
    Transaction(id, [], None, defaults.action, None, env,
                defaults.params.GetOr(map[]), defaults.tags.GetOr(map[]), defaults.kind.GetOr(HTTP_REQUEST),
                None, false, None, None, map[], map[], map[], false, false)
  }

  /** `set_tags`: merge, the given tags winning on shared keys. */
  function SetTags(t: Transaction, given: Payload): (r: Transaction)
    ensures r.tags.Keys == t.tags.Keys + given.Keys
    ensures forall k :: k in given ==> r.tags[k] == given[k]
    ensures forall k :: k in t.tags && k !in given ==> r.tags[k] == t.tags[k]
    ensures r.(tags := t.tags) == t
  {
    t.(tags := t.tags + given)
  }

  function Pause(t: Transaction): (r: Transaction)
    ensures r.paused && r.(paused := t.paused) == t
  {
    t.(paused := true)
  }

  function Resume(t: Transaction): (r: Transaction)
    ensures !r.paused && r.(paused := t.paused) == t
  {
    t.(paused := false)
  }

  /** `add_event`: appends exactly the event unless the transaction is paused. */
  function AddEvent(t: Transaction, e: Events.Event): (r: Transaction)
    ensures t.paused ==> r == t
    ensures !t.paused ==> r.events == t.events + [e] && r.(events := t.events) == t
  {
    if t.paused then t else t.(events := t.events + [e])
  }

  /** Adds the events one by one, as the notification subscriber does. */
  function AddEvents(t: Transaction, es: seq<Events.Event>): Transaction
    decreases |es|
  {
    if |es| == 0 then t else AddEvents(AddEvent(t, es[0]), es[1..])
  }

  /** While paused, no sequence of events reaches the transaction. */
  lemma {:induction false} PausedIgnoresEvents(t: Transaction, es: seq<Events.Event>)
    requires t.paused
    ensures AddEvents(t, es) == t
    decreases |es|
  {
    if |es| > 0 {
      PausedIgnoresEvents(AddEvent(t, es[0]), es[1..]);
    }
  }

  /** While not paused, every event is recorded, in order, and nothing else changes. */
  lemma {:induction false} UnpausedRecordsEvents(t: Transaction, es: seq<Events.Event>)
    requires !t.paused
    ensures AddEvents(t, es) == t.(events := t.events + es)
    decreases |es|
  {
    if |es| > 0 {
      UnpausedRecordsEvents(AddEvent(t, es[0]), es[1..]);
      assert t.events + [es[0]] + es[1..] == t.events + es;
    }
  }

  /** Pausing then resuming an unpaused transaction restores it. */
  lemma PauseResume(t: Transaction)
    requires !t.paused
    ensures Resume(Pause(t)) == t
  {
  }

  // ---------------------------------------------------------------------------
  // Primary events

  /** The action a request's primary event names: "controller#action" when the
      payload has a controller, else the payload's action as it is. */
  function RequestAction(payload: Payload): (a: Value)
    ensures Truthy(Lookup(payload, Sym("controller"))) ==>
              a == Str(ToS(payload[Sym("controller")]) + "#" + ToS(Lookup(payload, Sym("action"))))
    ensures !Truthy(Lookup(payload, Sym("controller"))) ==> a == Lookup(payload, Sym("action"))
  {
    var controller := Lookup(payload, Sym("controller"));
    if Truthy(controller) then Str(ToS(controller) + "#" + ToS(Lookup(payload, Sym("action"))))
    else Lookup(payload, Sym("action"))
  }

  /** `set_process_action_event`: nothing for a nil event; otherwise the event
      becomes primary, the action and kind follow from it, and the queue start
      is read from the environment. */
  function SetProcessActionEvent(t: Transaction, e: Option<Events.Event>): (r: Transaction)
    ensures e.None? ==> r == t
    ensures e.Some? ==> r.processActionEvent == e && r.kind == HTTP_REQUEST
    ensures e.Some? ==> r.action == RequestAction(e.value.payload)
    ensures e.Some? && HttpQueueStart(t.env).Some? ==> r.queueStart == HttpQueueStart(t.env)
    ensures e.Some? && HttpQueueStart(t.env).None? ==> r.queueStart == t.queueStart
    ensures r.events == t.events && r.exception == t.exception && r.tags == t.tags && r.env == t.env
    ensures r.requestId == t.requestId && r.paused == t.paused
  {
    match e
    case None => t
    case Some(ev) =>
      SetHttpQueueStart(t.(processActionEvent := e, action := RequestAction(ev.payload), kind := HTTP_REQUEST))
  }

  /** `set_perform_job_event`: nothing for a nil event; otherwise the event
      becomes primary, the action is "class#method", the kind is background
      job, and a present `queue_start` is copied as a float, which raises when
      the value has no `to_f`. */
  function SetPerformJobEvent(t: Transaction, e: Option<Events.Event>): (r: Step<Transaction>)
    ensures e.None? ==> r == Done(t)
    ensures e.Some? ==> r.state.processActionEvent == e && r.state.kind == BACKGROUND_JOB
    ensures e.Some? ==> r.state.action == Str(ToS(Lookup(e.value.payload, Sym("class"))) + "#"
                                             + ToS(Lookup(e.value.payload, Sym("method"))))
    ensures e.Some? && !Truthy(Lookup(e.value.payload, Sym("queue_start"))) ==>
              r.Done? && r.state.queueStart == t.queueStart
    ensures e.Some? && Truthy(Lookup(e.value.payload, Sym("queue_start"))) ==>
              match ToF(Lookup(e.value.payload, Sym("queue_start")))
              case Some(x) => r.Done? && r.state.queueStart == Some(x)
              case None => r.Raised? && r.error.className == "NoMethodError" && r.state.queueStart == t.queueStart
    ensures r.state.events == t.events && r.state.exception == t.exception && r.state.tags == t.tags
    ensures r.state.requestId == t.requestId && r.state.paused == t.paused
  {
    match e
    case None => Done(t)
    case Some(ev) =>
      var p := ev.payload;
      var t1 := t.(processActionEvent := e,
                   action := Str(ToS(Lookup(p, Sym("class"))) + "#" + ToS(Lookup(p, Sym("method")))),
                   kind := BACKGROUND_JOB);
      var queueStart := Lookup(p, Sym("queue_start"));
      if !Truthy(queueStart) then Done(t1)
      else match ToF(queueStart)
        case Some(x) => Done(t1.(queueStart := Some(x)))
        case None => Raised(t1, NoMethod("to_f"))
  }

  /** A job whose `queue_start` is a `Time` (what the Delayed::Job integration
      passes) keeps that time's `to_f` as queue start; one whose `queue_start`
      is an object without `to_f` raises `NoMethodError`. */
  lemma JobQueueStartObject(t: Transaction, e: Events.Event, cls: string, text: string, f: Option<real>)
    requires Lookup(e.payload, Sym("queue_start")) == Obj(cls, text, f)
    ensures f.Some? ==> SetPerformJobEvent(t, Some(e)) == Done(SetPerformJobEvent(t, Some(e)).state)
                        && SetPerformJobEvent(t, Some(e)).state.queueStart == f
    ensures f.None? ==> SetPerformJobEvent(t, Some(e)).Raised?
                        && SetPerformJobEvent(t, Some(e)).error.className == "NoMethodError"
  {
  }

  // ---------------------------------------------------------------------------
  // Queue start

  /** The queue start a header's digits denote: microseconds when that lands
      after the year-2000 bound, else milliseconds. */
  function QueueStartSeconds(value: nat): (s: real)
    ensures value > YEAR_2000 * 1000 ==> s > YEAR_2000 as real
  {
    if value > YEAR_2000 * 1000000 then value as real / 1000000.0 else value as real / 1000.0
  }

  /** The unit-guessing loop as written: try each factor in turn, keep the last
      quotient, stop at the first one past the bound. */
  function UnitLoop(value: nat, factors: seq<real>, last: Option<real>): Option<real>
    requires forall i :: 0 <= i < |factors| ==> factors[i] > 0.0
  {
    if |factors| == 0 then last
    else
      var q := value as real / factors[0];
      if q > YEAR_2000 as real then Some(q) else UnitLoop(value, factors[1..], Some(q))
  }

  /** The closed form agrees with the loop over the factors 10^6 and 10^3. */
  lemma QueueStartIsUnitLoop(value: nat)
    ensures UnitLoop(value, [1000000.0, 1000.0], None) == Some(QueueStartSeconds(value))
  {
    var fs := [1000000.0, 1000.0];
    assert fs[1..] == [1000.0];
    assert fs[1..][1..] == [];
    var micro := value as real / 1000000.0;
    var milli := value as real / 1000.0;
    assert micro > YEAR_2000 as real <==> value > YEAR_2000 * 1000000;
    if micro > YEAR_2000 as real {
      assert UnitLoop(value, fs, None) == Some(micro);
    } else {
      assert UnitLoop(value, fs, None) == UnitLoop(value, [1000.0], Some(micro));
      assert UnitLoop(value, [1000.0], Some(micro)) == (if milli > YEAR_2000 as real then Some(milli) else UnitLoop(value, [], Some(milli)));
    }
  }

  /** The header `set_http_queue_start` reads: `HTTP_X_QUEUE_START`, else
      `HTTP_X_REQUEST_START`. */
  function QueueHeader(env: Env): Option<string> {
    if "HTTP_X_QUEUE_START" in env then Some(env["HTTP_X_QUEUE_START"])
    else if "HTTP_X_REQUEST_START" in env then Some(env["HTTP_X_REQUEST_START"])
    else None
  }

  /** The queue start `set_http_queue_start` assigns, or `None` when it leaves
      the field alone: no environment, no header, or no digits in it. */
  function HttpQueueStart(env: Option<Env>): (r: Option<real>)
    ensures env.None? ==> r.None?
    ensures env.Some? && QueueHeader(env.value).None? ==> r.None?
    ensures r.Some? <==> env.Some? && QueueHeader(env.value).Some? && |KeepDigits(QueueHeader(env.value).value)| > 0
    ensures r.Some? ==> r == UnitLoop(DigitsValue(KeepDigits(QueueHeader(env.value).value)), [1000000.0, 1000.0], None)
  {
    match env
    case None => None
    case Some(vars) =>
      match QueueHeader(vars)
      case None => None
      case Some(header) =>
        var digits := KeepDigits(header);
        if |digits| == 0 then None
        else
          QueueStartIsUnitLoop(DigitsValue(digits));
          Some(QueueStartSeconds(DigitsValue(digits)))
  }

  function SetHttpQueueStart(t: Transaction): (r: Transaction)
    ensures HttpQueueStart(t.env).Some? ==> r == t.(queueStart := HttpQueueStart(t.env))
    ensures HttpQueueStart(t.env).None? ==> r == t
  {
    match HttpQueueStart(t.env)
    case Some(s) => t.(queueStart := Some(s))
    case None => t
  }

  // ---------------------------------------------------------------------------
  // Exceptions and classification

  /** `clean_backtrace`: empty without a backtrace, else the Rails cleaner's
      result when Rails is loaded, else the raw backtrace. */
  function CleanBacktrace(backtrace: Option<seq<string>>, cleaner: Option<seq<string> -> seq<string>>): (r: seq<string>)
    ensures backtrace.None? ==> r == []
    ensures backtrace.Some? && cleaner.None? ==> r == backtrace.value
    ensures backtrace.Some? && cleaner.Some? ==> r == cleaner.value(backtrace.value)
  {
    match backtrace
    case None => []
    case Some(bt) => if cleaner.Some? then cleaner.value(bt) else bt
  }

  /** `exception?`: an exception has been recorded. */
  predicate HasException(t: Transaction) {
    t.exception.Some?
  }

  /** `add_exception`: nothing for nil; otherwise records class name, message
      and cleaned backtrace, and stamps the time. */
  function AddException(t: Transaction, error: Option<Thrown>, now: real, hooks: Hooks): (r: Transaction)
    ensures error.None? ==> r == t
    ensures error.Some? ==> HasException(r) && r.time == Some(now)
    ensures error.Some? ==> r.exception.value == ExceptionRecord(error.value.className, error.value.message,
                                                               CleanBacktrace(error.value.backtrace, hooks.backtraceCleaner))
    ensures r.events == t.events && r.processActionEvent == t.processActionEvent && r.tags == t.tags
  {
    match error
    case None => t
    case Some(ex) =>
      t.(time := Some(now),
         exception := Some(ExceptionRecord(ex.className, ex.message, CleanBacktrace(ex.backtrace, hooks.backtraceCleaner))))
  }

  /** `slow_request?`: a primary event at least as long as the threshold. */
  predicate SlowRequest(t: Transaction, threshold: real) {
    t.processActionEvent.Some? && threshold <= Events.Duration(t.processActionEvent.value)
  }

  datatype TransactionType = ExceptionType | SlowRequestType | RegularRequestType

  /** `type`: an exception outranks a slow request, which outranks a regular one. */
  function Type(t: Transaction, threshold: real): (r: TransactionType)
    ensures r == ExceptionType <==> HasException(t)
    ensures r == SlowRequestType <==> !HasException(t) && SlowRequest(t, threshold)
    ensures r == RegularRequestType <==> !HasException(t) && !SlowRequest(t, threshold)
  {
    if HasException(t) then ExceptionType
    else if SlowRequest(t, threshold) then SlowRequestType
    else RegularRequestType
  }

  // ---------------------------------------------------------------------------
  // Sanitizing

  /** The tag filter: a symbol key, or a string key of at most 100 characters;
      and a symbol or string value of at most 100 characters, or an integer.
      A symbol key of any length passes: `&&` binds tighter than `||`. */
  predicate KeepTag(k: Value, v: Value) {
    (k.Sym? || (k.Str? && |k.s| <= TAG_LIMIT)) &&
    ((v.Sym? && |v.name| <= TAG_LIMIT) || (v.Str? && |v.s| <= TAG_LIMIT) || v.Int?)
  }

  /** `sanitize_tags!`: keeps exactly the pairs the filter accepts, unchanged. */
  function SanitizeTags(tags: Payload): (r: Payload)
    ensures forall k :: k in r <==> k in tags && KeepTag(k, tags[k])
    ensures forall k :: k in r ==> r[k] == tags[k]
  {
    map k | k in tags && KeepTag(k, tags[k]) :: tags[k]
  }

  /** Sanitized tags pass the filter again unchanged. */
  lemma SanitizeTagsIdempotent(tags: Payload)
    ensures SanitizeTags(SanitizeTags(tags)) == SanitizeTags(tags)
  {
  }

  /** The filter on the boundary cases: a 101-character string key is dropped,
      a 100-character string value and an integer value are kept, a float is
      dropped, and a long symbol key is kept. */
  lemma TagFilterExamples(long: string, limit: string)
    requires |long| == 101 && |limit| == 100
    ensures !KeepTag(Str(long), Str("v"))
    ensures KeepTag(Str("k"), Str(limit)) && KeepTag(Str("k"), Int(123))
    ensures !KeepTag(Str("k"), Float(1.5, "1.5")) && !KeepTag(Str("k"), Obj("Array", "[]", None))
    ensures KeepTag(Sym(long), Int(1))
  {
  }

  /** The environment snapshot: every listed variable, nil when absent. */
  function EnvironmentSnapshot(env: Env): (r: map<string, Option<string>>)
    ensures r.Keys == set k | k in ENV_METHODS
    ensures forall k :: k in r ==> r[k] == (if k in env then Some(env[k]) else None)
  {
    map k | k in ENV_METHODS :: if k in env then Some(env[k]) else None
  }

  /** `sanitize_environment!`: nothing without a non-empty environment;
      otherwise every listed variable is written over the previous snapshot. */
  function SnapshotInto(prev: map<string, Option<string>>, env: Option<Env>): (r: map<string, Option<string>>)
    ensures env.None? || |env.value| == 0 ==> r == prev
    ensures env.Some? && |env.value| > 0 ==>
              forall k :: k in ENV_METHODS ==>
                k in r && r[k] == (if k in env.value then Some(env.value[k]) else None)
  {
    if env.Some? && |env.value| > 0 then prev + EnvironmentSnapshot(env.value) else prev
  }

  /** Every event sanitized, in place and in order. */
  function SanitizeEvents(es: seq<Events.Event>, sanitize: Payload -> Payload): (r: seq<Events.Event>)
    ensures |r| == |es|
    ensures forall i :: 0 <= i < |es| ==> r[i] == Events.Sanitize(es[i], sanitize)
  {
    seq(|es|, i requires 0 <= i < |es| => Events.Sanitize(es[i], sanitize))
  }

  /** `convert_values_to_primitives!`: once only. Sanitizes the primary event
      and every event payload, snapshots environment, session data (requests
      only, when session data is not skipped), tags and params (when params are
      sent), and drops the raw environment. */
  function Convert(t: Transaction, config: Config, hooks: Hooks): (r: Transaction)
    ensures t.converted ==> r == t
    ensures !t.converted ==> r.converted && r.env.None?
    ensures !t.converted ==> r.events == SanitizeEvents(t.events, hooks.sanitize)
    ensures !t.converted && t.processActionEvent.Some? ==>
              r.processActionEvent == Some(Events.Sanitize(t.processActionEvent.value, hooks.sanitize))
    ensures !t.converted ==> r.tags == SanitizeTags(t.tags)
    ensures !t.converted && t.env.Some? && |t.env.value| > 0 ==>
              forall k :: k in ENV_METHODS ==>
                k in r.sanitizedEnvironment &&
                r.sanitizedEnvironment[k] == (if k in t.env.value then Some(t.env.value[k]) else None)
    ensures !t.converted && t.kind == HTTP_REQUEST && t.env.Some? && config.skipSessionData == Bool(false) ==>
              r.sanitizedSessionData == hooks.sanitize(hooks.session(t.env.value))
    ensures !t.converted && t.kind == HTTP_REQUEST && t.env.Some? ==> r.fullpath == Some(hooks.fullpath(t.env.value))
    ensures !t.converted && Truthy(config.sendParams) ==> r.sanitizedParams == hooks.sanitize(t.params)
    ensures !t.converted && !Truthy(config.sendParams) ==> r.sanitizedParams == t.sanitizedParams
    ensures r.requestId == t.requestId && r.action == t.action && r.kind == t.kind
    ensures r.exception == t.exception && r.queueStart == t.queueStart && r.params == t.params
  {
    if t.converted then t
    else
      var events := SanitizeEvents(t.events, hooks.sanitize);
      var primary := match t.processActionEvent
                     case Some(e) => Some(Events.Sanitize(e, hooks.sanitize))
                     case None => None;
      var environment := SnapshotInto(t.sanitizedEnvironment, t.env);
      var inRequest := t.kind == HTTP_REQUEST && t.env.Some?;
      var session := if inRequest && config.skipSessionData == Bool(false)
                     then hooks.sanitize(hooks.session(t.env.value)) else t.sanitizedSessionData;
      var fullpath := if inRequest then Some(hooks.fullpath(t.env.value)) else t.fullpath;
      var params := if Truthy(config.sendParams) then hooks.sanitize(t.params) else t.sanitizedParams;
      t.(events := events, processActionEvent := primary, sanitizedEnvironment := environment,
         sanitizedSessionData := session, fullpath := fullpath, tags := SanitizeTags(t.tags),
         sanitizedParams := params, env := None, converted := true)
  }

  /** Converting twice is converting once. */
  lemma ConvertIdempotent(t: Transaction, config: Config, hooks: Hooks)
    ensures Convert(Convert(t, config, hooks), config, hooks) == Convert(t, config, hooks)
  {
  }

  /** `truncate!`: once only. Empties the primary event's payload, events, tags
      and snapshots and drops the environment. With no primary event the first
      step raises and nothing changes. */
  function Truncate(t: Transaction): (r: Step<Transaction>)
    ensures t.truncated ==> r == Done(t)
    ensures !t.truncated && t.processActionEvent.None? ==> r.Raised? && r.state == t
    ensures !t.truncated && t.processActionEvent.Some? ==>
              r.Done? && r.state.truncated && r.state.events == [] && r.state.tags == map[] &&
              r.state.sanitizedEnvironment == map[] && r.state.sanitizedSessionData == map[] &&
              r.state.sanitizedParams == map[] && r.state.env.None? &&
              r.state.processActionEvent == Some(Events.Truncate(t.processActionEvent.value))
    ensures r.state.requestId == t.requestId && r.state.exception == t.exception && r.state.action == t.action
  {
    if t.truncated then Done(t)
    else match t.processActionEvent
      case None => Raised(t, NoMethod("truncate!"))
      case Some(e) =>
        Done(t.(processActionEvent := Some(Events.Truncate(e)), events := [], tags := map[],
                sanitizedEnvironment := map[], sanitizedSessionData := map[], sanitizedParams := map[],
                env := None, truncated := true))
  }

  /** Truncating twice is truncating once: the second call finds the flag set,
      or, when the first raised, the same missing primary event. */
  lemma TruncateIdempotent(t: Transaction)
    ensures Truncate(Truncate(t).state) == Truncate(t)
  {
  }

  // ---------------------------------------------------------------------------
  // Queue-start examples

  lemma {:induction false} KeepDigitsOfDigits(s: string)
    requires AllDigits(s)
    ensures KeepDigits(s) == s
  {
    if |s| > 0 {
      KeepDigitsOfDigits(s[1..]);
    }
  }

  /** The header the test helper builds, `t=` followed by an integer, yields
      that integer read as microseconds or milliseconds. */
  lemma {:induction false} StampedHeader(n: nat)
    ensures HttpQueueStart(Some(map["HTTP_X_REQUEST_START" := "t=" + NatToDecimal(n)])) == Some(QueueStartSeconds(n))
  {
    var d := NatToDecimal(n);
    var h := "t=" + d;
    assert h[1..] == "=" + d;
    assert h[1..][1..] == d;
    KeepDigitsOfDigits(d);
    assert KeepDigits(h) == d;
    DecimalRoundTrip(n);
  }

  /** A millisecond header `t=1500000000000` yields 1500000000 seconds; the
      same instant in microseconds yields the same. */
  lemma HeaderUnitExamples()
    ensures HttpQueueStart(Some(map["HTTP_X_REQUEST_START" := "t=" + NatToDecimal(1500000000000)])) == Some(1500000000.0)
    ensures HttpQueueStart(Some(map["HTTP_X_REQUEST_START" := "t=" + NatToDecimal(1500000000000000)])) == Some(1500000000.0)
    ensures HttpQueueStart(Some(map["HTTP_X_REQUEST_START" := "t=" + NatToDecimal(1389783599960)])) == Some(1389783599.96)
  {
    StampedHeader(1500000000000);
    StampedHeader(1500000000000000);
    StampedHeader(1389783599960);
  }

  /** The queue header wins over the request header. */
  lemma QueueHeaderPreferred(queue: string, request: string)
    ensures QueueHeader(map["HTTP_X_QUEUE_START" := queue, "HTTP_X_REQUEST_START" := request]) == Some(queue)
  {
  }
}

=== FILE: values.dfy ===
/**
 * Ruby values as the agent meets them: in event payloads, transaction tags,
 * configuration options and frontend error reports. Also the two wrappers the
 * rest of the model uses: `Option` for Ruby's `nil`, and `Step` for a call that
 * may raise part-way through.
 */
module Values {

  datatype Option<+T> = None | Some(value: T) {
    function GetOr(default: T): T {
      match this
      case Some(v) => v
      case None => default
    }
  }

  /** An object handed to `raise` (or to an API that expects one): its class
      name, its `message`, its `backtrace` (nil until raised) and whether it is
      an `Exception` at all. Ruby's `nil` is `Thrown("NilClass", "", None, false)`. */
  datatype Thrown = Thrown(className: string, message: string, backtrace: Option<seq<string>>, isException: bool)

  /** The `NoMethodError` Ruby raises when a method is sent to an object that lacks it. */
  function NoMethod(name: string): (e: Thrown)
    ensures e.className == "NoMethodError" && e.isException
  {
    Thrown("NoMethodError", "undefined method `" + name + "'", Some([]), true)
  }

  /** The outcome of a Ruby call that may raise: the state reached, and, when an
      exception escaped, that exception. Effects made before the raise persist. */
  datatype Step<T> = Done(state: T) | Raised(state: T, error: Thrown)

  /** A Ruby value. `Float` and `Obj` carry their own `to_s` text; `Obj` stands
      for every other object (arrays, hashes, times, ...) and carries what its
      `to_f` returns, `None` when it has no such method (a `Time` has one, an
      `Array` has not). */
  datatype Value =
    | Nil
    | Bool(b: bool)
    | Int(n: int)
    | Float(x: real, text: string)
    | Str(s: string)
    | Sym(name: string)
    | Obj(className: string, text: string, toF: Option<real>)

  /** A Ruby hash, as payloads, params and tags are. */
  type Payload = map<Value, Value>

  /** Ruby truthiness: everything except `nil` and `false`. */
  predicate Truthy(v: Value) {
    !(v.Nil? || v == Bool(false))
  }

  /** `hash[key]`: `nil` for a missing key. */
  function Lookup(m: Payload, key: Value): (v: Value)
    ensures key in m ==> v == m[key]
    ensures key !in m ==> v.Nil?
  {
    if key in m then m[key] else Nil
  }

  // ---------------------------------------------------------------------------
  // Decimal digits

  predicate IsDigit(c: char) {
    '0' <= c <= '9'
  }

  predicate AllDigits(s: string) {
    forall i :: 0 <= i < |s| ==> IsDigit(s[i])
  }

  function DigitChar(d: nat): (c: char)
    requires d < 10
    ensures IsDigit(c)
  {
    ['0', '1', '2', '3', '4', '5', '6', '7', '8', '9'][d]
  }

  function DigitValue(c: char): (d: nat)
    requires IsDigit(c)
    ensures d < 10
  {
    (c as int - '0' as int) as nat
  }

  lemma DigitValueOfDigitChar(d: nat)
    requires d < 10
    ensures DigitValue(DigitChar(d)) == d
  {
  }

  /** The number a string of decimal digits denotes (leading zeros allowed). */
  function DigitsValue(s: string): nat
    requires AllDigits(s)
  {
    if |s| == 0 then 0 else DigitsValue(s[..|s| - 1]) * 10 + DigitValue(s[|s| - 1])
  }

  /** `n.to_s` for a natural number: its shortest decimal rendering. */
  function NatToDecimal(n: nat): (s: string)
    ensures |s| >= 1 && AllDigits(s)
  {
    if n < 10 then [DigitChar(n)] else NatToDecimal(n / 10) + [DigitChar(n % 10)]
  }

  /** `Integer#to_s`. */
  function IntToS(n: int): string {
    if n < 0 then "-" + NatToDecimal(-n) else NatToDecimal(n)
  }

  /** Rendering a number and reading it back gives the number again. */
  lemma {:induction false} DecimalRoundTrip(n: nat)
    ensures DigitsValue(NatToDecimal(n)) == n
  {
    if n < 10 {
      DigitValueOfDigitChar(n);
    } else {
      var s := NatToDecimal(n);
      DecimalRoundTrip(n / 10);
      DigitValueOfDigitChar(n % 10);
      assert s[..|s| - 1] == NatToDecimal(n / 10);
    }
  }

  /** Different numbers render differently. */
  lemma DecimalInjective(m: nat, n: nat)
    requires NatToDecimal(m) == NatToDecimal(n)
    ensures m == n
  {
    DecimalRoundTrip(m);
    DecimalRoundTrip(n);
  }

  /** `str.tr('^0-9', '')`: the digits of `s`, in order. */
  function KeepDigits(s: string): (r: string)
    ensures AllDigits(r) && |r| <= |s|
  {
    if |s| == 0 then []
    else if IsDigit(s[0]) then [s[0]] + KeepDigits(s[1..])
    else KeepDigits(s[1..])
  }

  /** The longest prefix of `s` made of digits. */
  function LeadingDigits(s: string): (r: string)
    ensures AllDigits(r) && r <= s
    ensures |r| < |s| ==> !IsDigit(s[|r|])
  {
    if |s| > 0 && IsDigit(s[0]) then [s[0]] + LeadingDigits(s[1..]) else []
  }

  predicate IsSpace(c: char) {
    c == ' ' || c == '\t' || c == '\n' || c == '\r' || c as int == 11 || c as int == 12
  }

  function DropSpaces(s: string): (r: string)
    ensures |r| <= |s| && r == s[|s| - |r|..]
    ensures |r| > 0 ==> !IsSpace(r[0])
  {
    if |s| > 0 && IsSpace(s[0]) then DropSpaces(s[1..]) else s
  }

  /** `String#to_i`: leading blanks, an optional sign, then the leading digits;
      0 when there are none. */
  function StringToI(s: string): int {
    if |s| > 0 && IsSpace(s[0]) then StringToI(s[1..])
    else if |s| > 0 && s[0] == '-' then -(DigitsValue(LeadingDigits(s[1..])) as int)
    else if |s| > 0 && s[0] == '+' then DigitsValue(LeadingDigits(s[1..]))
    else DigitsValue(LeadingDigits(s))
  }

  /** The transmitter's status strings are decimal renderings; `to_i` reads
      them back exactly. */
  lemma StringToIOfDecimal(n: nat)
    ensures StringToI(NatToDecimal(n)) == n
  {
    var s := NatToDecimal(n);
    LeadingDigitsOfDigits(s);
    DecimalRoundTrip(n);
  }

  lemma {:induction false} LeadingDigitsOfDigits(s: string)
    requires AllDigits(s)
    ensures LeadingDigits(s) == s
  {
    if |s| > 0 {
      LeadingDigitsOfDigits(s[1..]);
    }
  }

  function Pow10(k: nat): (p: nat)
    ensures p >= 1
  {
    if k == 0 then 1 else 10 * Pow10(k - 1)
  }

  /** `String#to_f` over an optional sign, integer digits and an optional
      fraction: the number those characters spell, 0.0 when there are none. */
  function StringToF(s: string): real {
    var t := DropSpaces(s);
    var negative := |t| > 0 && t[0] == '-';
    var body := if |t| > 0 && (t[0] == '-' || t[0] == '+') then t[1..] else t;
    var whole := LeadingDigits(body);
    var rest := body[|whole|..];
    var fraction := if |rest| >= 2 && rest[0] == '.' && IsDigit(rest[1]) then LeadingDigits(rest[1..]) else [];
    var magnitude := DigitsValue(whole) as real + DigitsValue(fraction) as real / Pow10(|fraction|) as real;
    if negative then -magnitude else magnitude
  }

  /** `to_s` as string interpolation calls it. */
  function ToS(v: Value): string {
    match v
    case Nil => ""
    case Bool(b) => if b then "true" else "false"
    case Int(n) => IntToS(n)
    case Float(_, text) => text
    case Str(s) => s
    case Sym(name) => name
    case Obj(_, text, _) => text
  }

  /** `to_f`, or `None` for receivers that have no such method. */
  function ToF(v: Value): (r: Option<real>)
    ensures v.Int? ==> r == Some(v.n as real)
    ensures v.Float? ==> r == Some(v.x)
    ensures v.Obj? ==> r == v.toF
    ensures (v.Bool? || v.Sym?) ==> r.None?
    ensures r.None? ==> v.Bool? || v.Sym? || v.Obj?
  {
    match v
    case Nil => Some(0.0)
    case Bool(_) => None
    case Int(n) => Some(n as real)
    case Float(x, _) => Some(x)
    case Str(s) => Some(StringToF(s))
    case Sym(_) => None
    case Obj(_, _, f) => f
  }
}
